=== FILE: README.md ===
# Asana client core, modelled in Dafny

This project models the pure core of `asana`, a Go client for the Asana REST API (package
`asana`, files under `v1/`). The HTTP and JSON plumbing is left out. What remains is modelled
as immutable datatypes and pure functions:

- **The paging worker** (`Paging`). The same loop is copied into `doTasksPaging`,
  `ListMyWorkspaces`, `pageForTags`, `pageForCustomFields` and `pageForUsers`. It is modelled
  once, as a function from the outcomes of successive fetches to the URLs requested, the pages
  published, and whether the stream closed. The continuation test is modelled exactly as
  written: `np != nil && np.Path == ""`.
- **The `YYYYMMDD` date** (`Dates`, with `Decimal` for `strconv.ParseInt`). This covers
  `UnmarshalJSON` (unquote, split on `-`, at least three parts, each part parsed as an int64)
  and the memoising `String`, which prints without zero padding.
- **Request preparation** (`Tasks`, `Envelope`):
  - the assignee-status default;
  - the list-request defaults and the copy-then-override of `ListMyTasks`;
  - the search-option map with its key formats;
  - the `opt_fields` text;
  - trim-then-reject identifier checks;
  - stripping of read-only form fields before a create.
- **Reply unwrapping** (`Envelope`). A null `data` is `(nil, nil)` for tasks, tags, custom
  fields and stories, and `errNoAttachment` for attachments. `GetTag` and `GetWorkspace` use a
  first-element-or-not-found rule.
- **Attachments** (`Attachments`):
  - `Validate`;
  - `escapeQuotes` and the Content-Disposition header of the uploaded file part;
  - `nonBlankFilename`;
  - the sniff and repad decision of `fDetectContentType`;
  - the upload request, which never calls `Validate`.
- **Status classification** (`Http.Slurp`), as in `doAuthReqThenSlurpBody`. A refused status
  carries its code, and its message is the body when the body is non-empty, otherwise the
  status text.

Things the client cannot compute itself become parameters:
- the base URL (`base`);
- `MeAsUser` (`me`);
- `otils.StatusOK` (`statusOK`);
- the JSON decoders (`decode`);
- `otils.ToURLValues` (`encode`, or an `encoded` result);
- `http.DetectContentType` (`sniff`);
- the generated UUID text (`generated`);
- the transport's answer (`resp`, or a sequence of fetch outcomes for the pager).

## Surprising behaviour of the code

The model keeps each of these as the code has it.

- **Continuation test.** The worker fetches again only when `next_page` is present with an
  *empty* path, and then moves to that empty path. So every request after the first goes to
  the bare base URL; for tasks, only `opt_fields` is added. A token that names a next page
  ends the stream after one page (`Paging.TwoPageListingStopsAfterOne`). Only
  `ListMyWorkspaces` hands that token to its consumer.
- **Cancellation.** `ListAllTags`, `GetCustomFields`, `ListAllUsers`, `ListTasksForProject`
  and `SearchTask` return a cancel channel that their worker never reads, so cancelling has
  no effect. `ListAllMyTasks` returns a fresh unbuffered channel that no worker holds, so a
  send on it blocks for ever. `ListMyTasks` and `ListMyWorkspaces` return none. Cancellation
  is not an input of the model.
- **Printing dates.** `String` prints with `%d-%d-%d` and no padding, so "2012-03-26" prints
  as "2012-3-26". Printing then parsing gives the fields back exactly when no field is
  negative.
- **Uploads.** `UploadAttachment` copies the upload's own body after sniffing, not the repadded
  reader that `fDetectContentType` returns. When the body cannot be rewound, the sniffed prefix
  is missing from the upload (`Attachments.UnrewoundUploadLosesPrefix`).

## Model

| member | source | states |
|---|---|---|
| `Strings.TrimSpace` | v1/task.go:371-374 | the result is the input with its leading and trailing white space removed; its ends are not white space; it is empty exactly when the input is all white space |
| `Strings.Split` | v1/task.go:128 | one more part than there are separators; no part contains the separator; joining the parts with it gives the text back |
| `Decimal.Show` | v1/task.go:158 | `%d` output: non-empty, digits only except a leading minus, the minus exactly for negative values, and no leading zero (a lone "0" for zero) |
| `Decimal.ParseUintSpec` | v1/task.go:164-166 | the unsigned stage of `strconv.ParseInt` succeeds exactly on a non-empty digit string whose value fits in 64 bits, and returns that value |
| `Decimal.ParseIntSpec` | v1/task.go:164-166 | `intifyIt` succeeds exactly on an optionally signed decimal numeral whose value lies in the int64 range, and returns that value |
| `Decimal.ParseShow` | v1/task.go:158-166 | parsing the `%d` text of any int64 gives the number back |
| `Dates.Unquote` | v1/task.go:124-127 | success exactly on a literal with the same back, double or single quote at both ends and none inside, which, unless back-quoted, holds no backslash or newline, and if single-quoted at most one character; the result is the inside, without carriage returns when back-quoted. So a double-quoted literal with no quote, backslash or newline inside gives its inside, a single-quoted single character gives that character, and the empty `''` gives "" |
| `Dates.UnquoteRejects` | v1/task.go:124-127 | a bare quote or a newline inside a double-quoted literal, and two characters between single quotes, are refused |
| `Dates.EmptyQuotedDateRejected` | v1/task.go:124-131 | `''` unquotes to "", whose single part is too few, so decoding fails with "expecting YYYY-MM-DD" and leaves the date unchanged |
| `Dates.ParseAll` | v1/task.go:134-141 | all parts parse exactly when the result is a success, in which case the values are in order; otherwise the error is that of the first part that fails |
| `Dates.UnmarshalJSON` | v1/task.go:122-146 | success exactly when the text unquotes, splits into at least three parts and every part parses; then the fields are the first three values; on error the date is unchanged; the memo is never touched |
| `Dates.Text` | v1/task.go:152-162 | a nil date prints ""; a memoised text is returned as is; otherwise the text is the three `%d` texts joined by dashes, which for non-negative fields split back into those three texts, and the text is stored as the memo |
| `Dates.PrintThenParse` | v1/task.go:122-162 | decoding the printed text of a fresh date succeeds exactly when no field is negative, and then restores all three fields |
| `Dates.PrintIsMemoised` | v1/task.go:142-161 | once printed, the date prints the same text after any number of later decodes |
| `Dates.DecodeExample` | v1/task.go:123-146 | `"2012-03-26"` decodes to the fields 2012, 3 and 26 |
| `Dates.PrintExample` | v1/task.go:158 | the fields 2012, 3, 26 print as "2012-3-26", without padding |
| `Http.Slurp` | v1/task.go:168-191 | a body is returned exactly when a response arrived with an accepted status and was read whole; a refused status is a status error with the code, whose message is the body when non-empty and the status text otherwise; transport and read failures are their own errors |
| `Http.RefusalIgnoresReadError` | v1/task.go:176-185 | a refused status is a status error whether or not reading the body failed: the read error is dropped |
| `Http.BodyOverridesStatusText` | v1/task.go:177-182 | once the body is non-empty, the status text does not change the outcome |
| `Paging.Observe` | v1/task.go:436-446 | a fetch fails exactly when the status classification fails; a refused status publishes an error-only page and stops the worker; an accepted body passes the decoder's items, error and token on |
| `Paging.RefusedStatusEndsStream` | v1/task.go:437-442 | a refused status, classified by `Observe`, is published as a page holding only the `HTTPError` with the status code and the body or status text, and the stream closes after it |
| `Paging.OptFieldsValue` | v1/task.go:425-427 | `"this." + strings.Join(fields, ",this.")` is the fields, each prefixed with "this.", joined by commas |
| `Paging.Selection` | v1/task.go:425-427 | `opt_fields` is added exactly when the field list is not empty, with the prefixed, comma-joined fields |
| `Paging.RequestUrl` | v1/task.go:423-428 | each request goes to the base URL followed by the current path; every query key of the path is kept with its values, and the selection, if any, becomes the last `opt_fields` value; no other key appears |
| `Paging.RestartUrl` | v1/task.go:452-454 | after continuing, the request goes to the bare base URL, with only the selection as its query |
| `Paging.Run` | v1/task.go:394-462 | one request and one published page per fetch; the first request uses the starting path and later ones the empty path; each page is the fetch's items and error, or the error alone, with the token when the page type carries it; no fetch before the last stops the worker; the stream is closed exactly when the last fetch stops it |
| `Paging.TransportErrorEndsStream` | v1/tags.go:104-107 | a failed fetch publishes a page carrying only the error, and it is the last page before the stream closes |
| `Paging.DecodeErrorStillPublished` | v1/customfield.go:119-132 | a body the decoder rejected is still published with the error, and the continuation test still decides whether another fetch follows |
| `Paging.ContinuesExactlyOnEmptyPath` | v1/users.go:39-44 | another fetch follows exactly when the token is present with an empty path: such a token followed by another outcome gives another page, and a missing token or a non-empty path closes the stream |
| `Paging.LaterRequestsUseEmptyPath` | v1/task.go:452-454 | every request after the first goes to the base URL itself |
| `Paging.MoreOutcomesExtend` | v1/task.go:431-459 | the pages and requests seen so far are a prefix of those seen after further fetches, and a closed stream never changes |
| `Paging.TwoPageListingStopsAfterOne` | v1/task.go:452-457 | a first page whose token names the next page ends the stream after that page |
| `Envelope.ParseNullable` | v1/task.go:224-230 | a decode error is returned, a null `data` is `(nil, nil)`, and otherwise the item is returned |
| `Envelope.ParseRequired` | v1/attachment.go:76-86 | like the nullable unwrap, except that a null `data` becomes `errNoAttachment`, so the result is never `(nil, nil)` |
| `Envelope.FirstOrNotFound` | v1/tags.go:79-87 | a decode error is returned; a non-nil first element is returned; a nil first element is the not-found error; an empty or null list panics on the index |
| `Envelope.FirstIsRequired` | v1/tags.go:79-87 | on a list with a first element, the first-or-not-found rule is the single-item unwrap of that element with nil as the not-found error |
| `Envelope.Strip` | v1/tags.go:47-49 | exactly the listed keys are removed, and every other key keeps its values |
| `Envelope.CreateForm` | v1/tags.go:40-62 | an encoding error is returned before anything is sent; otherwise one POST with no query to the route, whose form has no read-only key and keeps every other key and value; a failed exchange returns its error, and an accepted body is the nullable unwrap |
| `Envelope.RequireId` | v1/task.go:371-374 | an identifier is refused exactly when it is all white space; otherwise the trimmed identifier is used, non-empty with no white space at either end |
| `Tasks.AssigneeStatusText` | v1/task.go:93-99 | the empty status reads as "inbox"; any other status reads as itself |
| `Tasks.StatusTextIdempotent` | v1/task.go:93-99 | applying the default twice gives the same text, and the text is a known status exactly when the status is empty or a known status |
| `Tasks.FillWithDefaults` | v1/task.go:295-302 | nil stays nil; a limit that is not positive becomes 20, a positive one is kept; nothing else changes |
| `Tasks.ListRequest` | v1/task.go:304-310 | the encoded request is the caller's request, or the zero request for nil, with the assignee set to `me`; the limit is defaulted; every other field is the caller's |
| `Tasks.ListMyTasks` | v1/task.go:304-319 | an encoding error is returned before any fetch and is the only failure; otherwise the first request is "/tasks" with the encoded request and `opt_fields`, every later one the bare base URL with only `opt_fields`, and each page is the fetch's page |
| `Tasks.ListAllMyTasks` | v1/task.go:287-291 | the request encoded is the zero request assigned to `me` with limit 20; its encoding error is the only failure; otherwise the requests and pages are those of `ListMyTasks` for that request |
| `Tasks.TasksPaging` | v1/task.go:394-462 | the first task page request is the starting path with `opt_fields` added to its query; every later one is the bare base URL with only `opt_fields` |
| `Tasks.ListTasksForProject` | v1/task.go:389-392 | a nil request panics; otherwise the first request is "/projects/<id>/tasks", with the identifier unchecked, and only `opt_fields` as its query; every later request is the bare base URL with `opt_fields`; each page is the fetch's page |
| `Tasks.ProjectListingUsesOnlyProjectId` | v1/task.go:389-392 | two requests naming the same project list identically, and no other field of the request reaches the query |
| `Tasks.CustomFieldKeyRoundTrip` | v1/task.go:475-500 | a key `custom_fields.<id>.<operator>` reads back as that identifier and operator, whatever the identifier holds |
| `Tasks.FormatBool` | v1/task.go:477 | `%t` writes "true" for true and "false" for false |
| `Tasks.OptionFormats` | v1/task.go:469-500 | each option writes its documented key, `custom_fields.<id>.is_set`, `.value`, `.starts_with`, `.ends_with` or `.contains`, with its value; `is_set` writes "true" or "false" |
| `Tasks.ApplyAll` | v1/task.go:514-520 | after the options are applied, the last option's key holds its value |
| `Tasks.SearchFieldsAreLastWrites` | v1/task.go:514-520 | the search map holds exactly the keys the options write, and each key holds the value of the last option writing it |
| `Tasks.LaterOptionWins` | v1/task.go:518-520 | a later option for the same key overrides an earlier one |
| `Tasks.SearchQuery` | v1/task.go:521-524 | the query has the same keys as the search map, each with its one value |
| `Tasks.SearchTask` | v1/task.go:514-528 | the first request goes to "/workspaces/<id>/tasks/search" with the search query plus `opt_fields`; every later request is the bare base URL with `opt_fields`; each page is the fetch's page |
| `Tasks.SearchDependsOnlyOnFields` | v1/task.go:514-528 | option lists that collect to the same search fields give the same requests and pages |
| `Tasks.SearchOverrideDropsFirst` | v1/task.go:514-528 | of two options writing one key, the first has no effect on the search |
| `Tasks.FindTaskByID` | v1/task.go:370-385 | a blank identifier is refused before any request; otherwise one GET of "/tasks/<trimmed id>"; a failed exchange returns its error, and an accepted body is the nullable unwrap |
| `Tasks.FindTaskReplies` | v1/task.go:370-385 | over all inputs: the task exactly when the identifier is not blank, the exchange succeeds and `data` holds it; `(nil, nil)` exactly when `data` is null; an error exactly otherwise |
| `Tasks.DeleteTask` | v1/task.go:530-539 | a blank identifier is refused before any request; otherwise one DELETE of "/tasks/<trimmed id>", which succeeds exactly when the status is accepted and the body is read |
| `Tasks.DeleteTaskReplies` | v1/task.go:530-539 | the deletion succeeds exactly when the identifier is not blank and the exchange succeeds; otherwise the error is the blank-identifier error or the exchange's |
| `Tags.ListAllTags` | v1/tags.go:89-127 | listing starts at "/tags" and continues at the bare base URL; one request per published page, and the pages are the fetches' pages; the stream closes exactly after the first fetch that stops the worker, and while open every outcome has been published |
| `Tags.CreateTag` | v1/tags.go:40-62 | an encoding error is returned before anything is sent; otherwise one POST with no query to "/tags" whose form lacks "num_hearts" and keeps every other key's values; a failed exchange returns its error, and an accepted body is the nullable unwrap |
| `Tags.GetTag` | v1/tags.go:71-88 | one GET of "/tags/<id>" with the identifier unchecked; the reply is the first element, or "No tag found with ID <id>"; never `(nil, nil)` |
| `Tags.GetTagReplies` | v1/tags.go:71-88 | over all inputs: the tag exactly when the exchange succeeds and the list opens with it; the not-found error when it opens with nil; a panic exactly when the list is null or empty |
| `CustomFields.GetCustomFields` | v1/customfield.go:98-136 | listing starts at "/workspaces/<id>/custom_fields", with the identifier unchecked, and continues at the bare base URL; one request per published page, the pages are the fetches' pages, and the stream closes exactly after the first fetch that stops the worker |
| `CustomFields.CreateCustomField` | v1/customfield.go:74-96 | an encoding error is returned before anything is sent; otherwise one POST with no query to "/custom_fields" whose form lacks "num_hearts" and keeps every other key's values; a failed exchange returns its error, and an accepted body is the nullable unwrap |
| `Stories.CreateStory` | v1/stories.go:29-59 | an encoding error is returned before anything is sent; otherwise one POST with no query to "/tasks/<task id>/stories", with the identifier unchecked, whose form lacks "num_hearts" and keeps every other key's values; a failed exchange returns its error, and an accepted body is the nullable unwrap |
| `Users.ListAllUsers` | v1/users.go:9-48 | listing starts at "/users" and continues at the bare base URL; one request per published page, the pages are the fetches' pages, and the stream closes exactly after the first fetch that stops the worker |
| `Workspaces.ListMyWorkspaces` | v1/task.go:334-366 | listing starts at "/workspaces" and continues at the bare base URL; each page is the decoded `WorkspacePage` itself, so it keeps the fetch's items and its `next_page` token; one request per page, and the stream closes exactly after the first fetch that stops the worker |
| `Workspaces.GetWorkspace` | v1/workspaces.go:16-33 | one GET of "/workspaces/<id>" with the identifier neither trimmed nor checked; the reply is the first element, or "No workspace found with ID <id>" |
| `Workspaces.GetWorkspaceReplies` | v1/workspaces.go:16-33 | over all inputs: the workspace exactly when the exchange succeeds and the list opens with it; the not-found error when it opens with nil; a panic exactly when the list is null or empty |
| `Attachments.Validate` | v1/attachment.go:103-111 | a nil upload or body is `errNilBody`, checked first; then a blank task identifier is `errEmptyTaskID`; otherwise nil |
| `Attachments.EscapeQuotes` | v1/attachment.go:113-117 | the text grows by one character per backslash and per double quote, and text with neither is unchanged |
| `Attachments.ReadEscaped` | v1/attachment.go:113-117 | reading an escaped text back up to the first bare quote recovers the text, and that quote is the one after it |
| `Attachments.EscapeInjective` | v1/attachment.go:113-117 | different texts escape differently |
| `Attachments.DispositionRoundTrip` | v1/attachment.go:132-134 | the file part's Content-Disposition header reads back as exactly the content type and file name it was built from |
| `Attachments.NonBlankFilename` | v1/attachment.go:94-99 | a non-empty name is used unchanged; an empty one is replaced by the generated UUID text; the result is never empty |
| `Attachments.DetectContentType` | v1/attachment.go:256-282 | a nil reader is `errNilBody` and an empty one ends the stream; the type is sniffed from the whole 512-byte buffer; a reader that cannot seek or rewind is repadded with the whole buffer; a rewound reader is returned whole |
| `Attachments.RepadKeepsBytes` | v1/attachment.go:268-279 | the returned stream starts with the reader's bytes, and equals them exactly unless a reader shorter than 512 bytes was repadded |
| `Attachments.UploadAttachment` | v1/attachment.go:121-219 | a sniffing error is returned before any request; otherwise one multipart POST to "/tasks/<task id>/attachments" with `opt_fields=this.name,this.view_url`, holding the file part, with its two headers and the body's unread bytes, then the "type" field; a failed exchange returns its error; a null reply is `errNoAttachment` |
| `Attachments.UploadSkipsValidation` | v1/attachment.go:155-206 | an upload that `Validate` refuses for a blank task identifier is still sent |
| `Attachments.UnrewoundUploadLosesPrefix` | v1/attachment.go:122-143 | when the body cannot be rewound, the uploaded bytes are the body without its sniffed prefix |
| `Attachments.FindAttachmentByID` | v1/attachment.go:58-70 | a blank identifier is `errEmptyAttachmentID` before any request; otherwise one GET of "/attachments/<trimmed id>"; a failed exchange returns its error; a null reply is `errNoAttachment` |
| `Attachments.FindAttachmentReplies` | v1/attachment.go:58-70 | over all inputs: the attachment exactly when the identifier is not blank, the exchange succeeds and `data` holds it; an error exactly otherwise, never `(nil, nil)` |
| `Attachments.ListAllAttachmentsForTask` | v1/attachment.go:226-247 | a blank task identifier is refused before any request; otherwise one GET of "/tasks/<trimmed id>/attachments"; a failed exchange returns its error; the reply is the decoded page or the decode error |
| `Attachments.ListAttachmentsReplies` | v1/attachment.go:226-247 | over all inputs: the decoded page exactly when the identifier is not blank, the exchange succeeds and the page decodes; an error exactly otherwise |

## Left out

- Goroutines, channels and back-pressure: each worker is a sequential function of the fetch outcomes it is fed. The cancel channel is never read, so it is not modelled.
- The HTTP transport, the Authorization header and `otils.StatusOK`: the status test is a parameter, and the transport's answer is an input.
- `url.Parse` and `Values.Encode`: a URL is a path text plus a decoded query. `ListMyTasks` and `SearchTask` encode a query into the path, and the tasks pager parses it back; that round trip is treated as the identity.
- `Tasks.FindTaskByID`, `Attachments.ListAllAttachmentsForTask`, `Stories.CreateStory`: an identifier is pasted into the URL text unescaped, so one such as "%zz" makes the URL invalid; these three then return the error of `http.NewRequest`. URL syntax is not modelled: every identifier is taken to give a valid URL, and the model sends the request.
- `Tasks.DeleteTask`, `Tags.GetTag`, `Workspaces.GetWorkspace`, `Attachments.FindAttachmentByID`, `CustomFields.GetCustomFields`: these drop the error of `http.NewRequest` with `_`, so an invalid URL leaves a nil request, and setting its header in `doAuthReqThenSlurpBody` panics. Not modelled, for the same reason.
- `Tasks.ListTasksForProject`, `Tasks.SearchTask`: `doTasksPaging` drops the error of `url.Parse`, so a project or workspace identifier that makes the URL invalid, such as "%zz", leaves a nil URL, and `uri.Query()` panics. Not modelled, for the same reason.
- JSON decoding and `otils.ToURLValues`: both are parameters.
- `readOnlyFields` is taken as the list ["num_hearts"] it holds.
- `CreateTask` and `AssigneeStatus.MarshalJSON`/`YYYYMMDD.MarshalJSON` build JSON text, which is not modelled.
- `WithCustomFieldLess` and `WithCustomFieldGreater`: they format floats with `%f`, so they are left out. `WithCustomFieldValue` is modelled for string values only; other values fail Go's type assertion and panic.
- `Tasks.TaskRequest`: the fields `CreatedAt`, `CompletedAt`, `DueOn`, `DueAt`, `ModifiedAt`, `CustomFields`, `Metadata`, `Hearts` and `Memberships` are not modelled. The request reaches the wire only through the encoder, which is a parameter, and no modelled operation reads these fields.
- `time.Time` fields, `Metadata`, `CustomField.NumberValue`, and the `User`, `Project`, `UserID` and `HTTPError` types: these are not part of these records.
- `sync.RWMutex` in `YYYYMMDD`: the memo is an ordinary field of an immutable value.
- `fmt.Println` debug output.
- `Dates.Unquote`: it does not decode escape sequences. A quoted date that contains a backslash is rejected, where `strconv.Unquote` would decode the escape. Dates never contain one.
- `Attachments.DetectContentType`: assumes the first read fills the buffer with min(512, length) bytes; `io.ReadAtLeast` may return fewer. A failed rewind is assumed to leave the position unchanged.
- `Attachments.UploadAttachment`: the multipart boundary, the `Content-Type` header of the request, and failures of the multipart writer and `io.Copy` are not modelled. A nil upload pointer, which panics, is not an input. `UploadAttachment` uses the task identifier as given; an identifier containing `?` or `#` would change what `url.Parse` produces, and one such as "%zz" makes `url.Parse` fail, in which case the function returns that error before sending anything. Neither is modelled: the model sends the request.

=== FILE: attachments.dfy ===
/** Attachments: upload validation, the quoting of the multipart Content-Disposition header,
    content-type sniffing with its repad decision, the upload itself, and the lookup and
    listing of attachments. */
module Attachments {
  import opened Wrappers
  import opened Errors
  import opened Strings
  import opened Http
  import opened Envelope
  import opened Entities

  /** A body to upload: its bytes, whether it can seek, and whether rewinding it succeeds. */
  datatype Reader = Reader(data: seq<byte>, seekable: bool, rewinds: bool)

  /** `AttachmentUpload`; a nil `Body` is None. */
  datatype Upload = Upload(body: Option<Reader>, taskId: string, name: string)

  /** `Validate`: a nil upload or a nil body is refused first, then a blank task identifier. */
  function Validate(au: Option<Upload>): (err: Option<Error>)
    ensures au.None? || au.value.body.None? ==> err == Some(NilBody)
    ensures au.Some? && au.value.body.Some? ==> (err == Some(EmptyTaskID) <==> AllSpace(au.value.taskId))
    ensures err.None? <==> au.Some? && au.value.body.Some? && RequireId(au.value.taskId, EmptyTaskID).Success?
  {
    if au.None? || au.value.body.None? then Some(NilBody)
    else if TrimSpace(au.value.taskId) == "" then Some(EmptyTaskID)
    else None
  }

  /** What `quoteEscaper` writes for one character. */
  function EscapeChar(c: char): string {
    if c == '\\' then "\\\\" else if c == '"' then "\\\"" else [c]
  }

  /** `escapeQuotes`: every backslash and every double quote gets a backslash in front; the
      text grows by one character for each of them. */
  function EscapeQuotes(s: string): (r: string)
    ensures |r| == |s| + Count(s, '\\') + Count(s, '"')
    ensures (forall i :: 0 <= i < |s| ==> s[i] != '\\' && s[i] != '"') ==> r == s
    decreases |s|
  {
    if |s| == 0 then "" else EscapeChar(s[0]) + EscapeQuotes(s[1..])
  }

  /** Reads the inside of a quoted string whose opening quote is already consumed: a
      backslash takes the next character literally, and the first bare quote ends the
      string. Gives the text and what follows the closing quote, or None when the input
      ends first. */
  function ReadQuoted(t: string): (r: Option<(string, string)>)
    decreases |t|
  {
    if |t| == 0 then None
    else if t[0] == '"' then Some(("", t[1..]))
    else
      var (lit, skip) := if t[0] == '\\' && |t| >= 2 then ([t[1]], 2) else ([t[0]], 1);
      if t[0] == '\\' && |t| < 2 then None
      else match ReadQuoted(t[skip..])
        case None => None
        case Some((text, rest)) => Some((lit + text, rest))
  }

  /** An escaped text followed by a quote reads back as the text, and the quote that follows
      it is the one that closes it: whatever the text holds, it cannot end the quoted value
      early. */
  lemma {:induction false} ReadEscaped(s: string, rest: string)
    ensures ReadQuoted(EscapeQuotes(s) + "\"" + rest) == Some((s, rest))
    decreases |s|
  {
    var t := EscapeQuotes(s) + "\"" + rest;
    if |s| == 0 {
      assert t == "\"" + rest;
    } else {
      ReadEscaped(s[1..], rest);
      var tail := EscapeQuotes(s[1..]) + "\"" + rest;
      assert t == EscapeChar(s[0]) + tail;
      ReadOneEscaped(s[0], tail);
      assert [s[0]] + s[1..] == s;
    }
  }

  /** One escaped character is read back as itself, ahead of whatever the rest reads as. */
  lemma ReadOneEscaped(c: char, tail: string)
    requires ReadQuoted(tail).Some?
    ensures ReadQuoted(EscapeChar(c) + tail) == Some(([c] + ReadQuoted(tail).value.0, ReadQuoted(tail).value.1))
  {
    var t := EscapeChar(c) + tail;
    if c == '\\' || c == '"' {
      assert t[0] == '\\' && t[1] == c && t[2..] == tail;
    } else {
      assert t[0] == c && t[1..] == tail;
    }
  }

  /** Escaping loses nothing: different texts escape differently. */
  lemma EscapeInjective(s: string, u: string)
    requires EscapeQuotes(s) == EscapeQuotes(u)
    ensures s == u
  {
    ReadEscaped(s, "");
    ReadEscaped(u, "");
  }

  const DispositionHead := "form-data; name=\"file\"; type=\""
  const FilenameHead := "; filename=\""

  /** The Content-Disposition header of the file part: the content type and the file name,
      each escaped and quoted. */
  function ContentDisposition(contentType: string, filename: string): string {
    DispositionHead + (EscapeQuotes(contentType) + ("\"" + (FilenameHead + (EscapeQuotes(filename) + "\""))))
  }

  /** Reads the content type and the file name back out of a Content-Disposition header of
      that form. */
  function ParseDisposition(h: string): Option<(string, string)> {
    match AfterPrefix(DispositionHead, h)
    case None => None
    case Some(r0) =>
      match ReadQuoted(r0)
      case None => None
      case Some((contentType, r1)) =>
        match AfterPrefix(FilenameHead, r1)
        case None => None
        case Some(r2) =>
          match ReadQuoted(r2)
          case None => None
          case Some((filename, r3)) => if r3 == "" then Some((contentType, filename)) else None
  }

  /** The header names exactly the content type and file name it was made from, whatever
      quotes or backslashes they contain. */
  lemma DispositionRoundTrip(contentType: string, filename: string)
    ensures ParseDisposition(ContentDisposition(contentType, filename)) == Some((contentType, filename))
  {
    var a, b := EscapeQuotes(contentType), EscapeQuotes(filename);
    var r2 := b + "\"";
    var r1 := FilenameHead + r2;
    var r0 := a + ("\"" + r1);
    assert ContentDisposition(contentType, filename) == DispositionHead + r0;
    AfterPrefixConcat(DispositionHead, r0);
    assert r0 == a + "\"" + r1;
    ReadEscaped(contentType, r1);
    AfterPrefixConcat(FilenameHead, r2);
    assert r2 == b + "\"" + "";
    ReadEscaped(filename, "");
  }

  /** `nonBlankFilename`: the upload's name, or a freshly generated UUID text when it is
      empty. */
  function NonBlankFilename(name: string, generated: string): (r: string)
    requires |generated| == 36
    ensures r != ""
    ensures name != "" ==> r == name
    ensures name == "" ==> r == generated
  {
    if name != "" then name else generated
  }

  /** The size of the sniffing buffer. */
  const SniffLen := 512

  /** `n` zero bytes. */
  function Zeros(n: nat): (z: seq<byte>)
    ensures |z| == n && forall i :: 0 <= i < n ==> z[i] == 0
  {
    seq(n, _ => 0)
  }

  /** What `fDetectContentType` gives back: the sniffed type, the bytes the returned reader
      yields, and the bytes still unread in the caller's own reader. */
  datatype Sniffed = Sniffed(contentType: string, stream: seq<byte>, left: seq<byte>)

  /** The bytes one read of at least one byte fills in, up to the buffer size. */
  function SniffCount(data: seq<byte>): (n: nat)
    ensures n == if |data| < SniffLen then |data| else SniffLen
  {
    if |data| < SniffLen then |data| else SniffLen
  }

  /** `fDetectContentType`: a nil reader is refused and an empty one ends the stream;
      otherwise the type is sniffed from the whole 512-byte buffer, zero tail included. A
      reader that cannot seek, or whose rewind fails, is repadded: the returned stream is the
      whole buffer followed by the rest of the reader. A rewound reader is returned as it
      is. */
  function DetectContentType(r: Option<Reader>, sniff: seq<byte> -> string): (out: Result<Sniffed, Error>)
    ensures r.None? ==> out == Failure(NilBody)
    ensures r.Some? && |r.value.data| == 0 ==> out == Failure(EndOfStream)
    ensures out.Success? <==> r.Some? && |r.value.data| > 0
    ensures out.Success? ==>
              var data, n := r.value.data, SniffCount(r.value.data);
              var rewound := r.value.seekable && r.value.rewinds;
              && out.value.contentType == sniff(data[..n] + Zeros(SniffLen - n))
              && (rewound ==> out.value.stream == data && out.value.left == data)
              && (!rewound ==> out.value.stream == data[..n] + Zeros(SniffLen - n) + data[n..]
                               && out.value.left == data[n..])
  {
    match r
    case None => Failure(NilBody)
    case Some(reader) =>
      if |reader.data| == 0 then Failure(EndOfStream)
      else
        var n := SniffCount(reader.data);
        var buf := reader.data[..n] + Zeros(SniffLen - n);
        var needsRepad := !reader.seekable || !reader.rewinds;
        if needsRepad then Success(Sniffed(sniff(buf), buf + reader.data[n..], reader.data[n..]))
        else Success(Sniffed(sniff(buf), reader.data, reader.data))
  }

  /** The returned stream carries exactly the reader's bytes unless it was repadded from a
      reader shorter than the buffer, in which case the zero tail of the buffer follows
      them. */
  lemma RepadKeepsBytes(r: Reader, sniff: seq<byte> -> string)
    requires |r.data| > 0
    ensures var s := DetectContentType(Some(r), sniff).value;
            && (s.stream == r.data <==> (r.seekable && r.rewinds) || |r.data| >= SniffLen)
            && r.data <= s.stream
  {
    var s := DetectContentType(Some(r), sniff).value;
    var n := SniffCount(r.data);
    if !(r.seekable && r.rewinds) {
      if |r.data| < SniffLen {
        assert r.data[..n] == r.data && r.data[n..] == [];
        assert s.stream == r.data + Zeros(SniffLen - n) + [];
        assert |s.stream| > |r.data|;
      } else {
        assert Zeros(SniffLen - n) == [];
        assert r.data[..n] + r.data[n..] == r.data;
      }
    }
  }

  /** The `opt_fields` selection of the upload request. */
  const UploadSelection := "this.name,this.view_url"

  /** `UploadAttachment`: sniffs the content type, then POSTs a multipart form to
      "/tasks/<task id>/attachments" holding the file part (its Content-Disposition and
      Content-Type headers, and the bytes still unread in the upload's own body) followed by
      a "type" field with the content type. The task identifier is not trimmed or checked:
      `Validate` is never called. A null `data` in the reply is `errNoAttachment`. */
  function UploadAttachment(base: string, au: Upload, sniff: seq<byte> -> string, generated: string,
                            statusOK: int -> bool, resp: Response, decode: string -> Decoded<Attachment>): (x: Exchange<Attachment>)
    requires |generated| == 36
    ensures x.sent.None? <==> DetectContentType(au.body, sniff).Failure?
    ensures x.sent.None? ==> x.reply == Fail(DetectContentType(au.body, sniff).error)
    ensures x.sent.Some? ==>
              var s := DetectContentType(au.body, sniff).value;
              var file := FilePart(map["Content-Disposition" := [ContentDisposition(s.contentType, NonBlankFilename(au.name, generated))],
                                       "Content-Type" := [s.contentType]],
                                   s.left);
              x.sent.value == Request(Post, Url(base + ("/tasks/" + au.taskId + "/attachments"), map["opt_fields" := [UploadSelection]]),
                                      Multipart([file, FieldPart("type", s.contentType)]))
    ensures x.sent.Some? && Slurp(statusOK, resp).Failure? ==> x.reply == Fail(Slurp(statusOK, resp).error)
    ensures x.sent.Some? && Slurp(statusOK, resp).Success? ==>
              x.reply == ParseRequired(decode(Slurp(statusOK, resp).value), NoAttachment)
    ensures !x.reply.Nil?
  {
    match DetectContentType(au.body, sniff)
    case Failure(e) => Exchange(None, Fail(e))
    case Success(s) =>
      var filename := NonBlankFilename(au.name, generated);
      var header := map["Content-Disposition" := [ContentDisposition(s.contentType, filename)],
                        "Content-Type" := [s.contentType]];
      var url := Url(base + "/tasks/" + au.taskId + "/attachments", Add(map[], "opt_fields", UploadSelection));
      assert url.query == map["opt_fields" := [UploadSelection]] by {
        assert url.query.Keys == {"opt_fields"};
        assert url.query["opt_fields"] == [UploadSelection];
      }
      Call(Request(Post, url, Multipart([FilePart(header, s.left), FieldPart("type", s.contentType)])),
           statusOK, resp, body => ParseRequired(decode(body), NoAttachment))
  }

  /** The upload goes out even when `Validate` would refuse it for a blank task identifier. */
  lemma UploadSkipsValidation(base: string, au: Upload, sniff: seq<byte> -> string, generated: string,
                              statusOK: int -> bool, resp: Response, decode: string -> Decoded<Attachment>)
    requires |generated| == 36
    requires au.body.Some? && |au.body.value.data| > 0 && AllSpace(au.taskId)
    ensures Validate(Some(au)) == Some(EmptyTaskID)
    ensures UploadAttachment(base, au, sniff, generated, statusOK, resp, decode).sent.Some?
  {
  }

  /** The file part carries what is left in the upload's own body, not the repadded stream:
      when the body could not be rewound, the sniffed prefix is missing from the upload. */
  lemma UnrewoundUploadLosesPrefix(base: string, au: Upload, sniff: seq<byte> -> string, generated: string,
                                   statusOK: int -> bool, resp: Response, decode: string -> Decoded<Attachment>)
    requires |generated| == 36
    requires au.body.Some? && |au.body.value.data| > 0 && !(au.body.value.seekable && au.body.value.rewinds)
    ensures var x := UploadAttachment(base, au, sniff, generated, statusOK, resp, decode);
            var data := au.body.value.data;
            && x.sent.Some? && x.sent.value.payload.parts[0].content == data[SniffCount(data)..]
            && x.sent.value.payload.parts[0].content != data
  {
    var data := au.body.value.data;
    assert |data[SniffCount(data)..]| < |data|;
  }

  /** `FindAttachmentByID`: a blank identifier is refused before any request; otherwise GET
      "/attachments/<trimmed id>", and a null `data` is `errNoAttachment`. */
  function FindAttachmentByID(base: string, attachmentId: string, statusOK: int -> bool, resp: Response,
                              decode: string -> Decoded<Attachment>): (x: Exchange<Attachment>)
    ensures x.sent.None? <==> AllSpace(attachmentId)
    ensures x.sent.None? ==> x.reply == Fail(EmptyAttachmentID)
    ensures x.sent.Some? ==> x.sent.value == Request(Get, Url(base + "/attachments/" + TrimSpace(attachmentId), map[]), NoPayload)
    ensures x.sent.Some? && Slurp(statusOK, resp).Failure? ==> x.reply == Fail(Slurp(statusOK, resp).error)
    ensures x.sent.Some? && Slurp(statusOK, resp).Success? ==>
              x.reply == ParseRequired(decode(Slurp(statusOK, resp).value), NoAttachment)
    ensures !x.reply.Nil?
  {
    match RequireId(attachmentId, EmptyAttachmentID)
    case Failure(e) => Exchange(None, Fail(e))
    case Success(id) =>
      Call(Request(Get, Url(base + "/attachments/" + id, map[]), NoPayload), statusOK, resp,
           body => ParseRequired(decode(body), NoAttachment))
  }

  /** `ListAllAttachmentsForTask`: a blank task identifier is refused before any request;
      otherwise GET "/tasks/<trimmed id>/attachments", and the decoded page, or the decode
      error. A null `data` is an empty page. */
  function ListAllAttachmentsForTask(base: string, taskId: string, statusOK: int -> bool, resp: Response,
                                     decode: string -> Result<seq<Option<Attachment>>, Error>): (x: Exchange<seq<Option<Attachment>>>)
    ensures x.sent.None? <==> AllSpace(taskId)
    ensures x.sent.None? ==> x.reply == Fail(EmptyTaskID)
    ensures x.sent.Some? ==> x.sent.value == Request(Get, Url(base + ("/tasks/" + TrimSpace(taskId) + "/attachments"), map[]), NoPayload)
    ensures x.sent.Some? && Slurp(statusOK, resp).Success? ==>
              var page := decode(Slurp(statusOK, resp).value);
              && (page.Failure? ==> x.reply == Fail(page.error))
              && (page.Success? ==> x.reply == Found(page.value))
    ensures x.sent.Some? && Slurp(statusOK, resp).Failure? ==> x.reply == Fail(Slurp(statusOK, resp).error)
    ensures !x.reply.Nil?
  {
    match RequireId(taskId, EmptyTaskID)
    case Failure(e) => Exchange(None, Fail(e))
    case Success(id) =>
      Call(Request(Get, Url(base + "/tasks/" + id + "/attachments", map[]), NoPayload), statusOK, resp,
           body => match decode(body)
                   case Failure(e) => Fail(e)
                   case Success(items) => Found(items))
  }

  /** The reply of `FindAttachmentByID` over all inputs: the attachment exactly when the
      identifier is not blank, the exchange succeeds and the body's `data` holds an
      attachment; an error in every other case, never `(nil, nil)`. */
  lemma FindAttachmentReplies(base: string, attachmentId: string, statusOK: int -> bool, resp: Response,
                              decode: string -> Decoded<Attachment>, a: Attachment)
    ensures var x := FindAttachmentByID(base, attachmentId, statusOK, resp, decode);
            var got := Slurp(statusOK, resp);
            && (x.reply == Found(a) <==> !AllSpace(attachmentId) && got.Success? && decode(got.value) == Decoded(Some(a)))
            && (x.reply.Fail? <==> AllSpace(attachmentId) || got.Failure? || !(decode(got.value).Decoded? && decode(got.value).data.Some?))
            && !x.reply.Nil? && !x.reply.IndexPanic?
  {
  }

  /** The reply of `ListAllAttachmentsForTask` over all inputs: the decoded page exactly when
      the identifier is not blank, the exchange succeeds and the page decodes. */
  lemma ListAttachmentsReplies(base: string, taskId: string, statusOK: int -> bool, resp: Response,
                               decode: string -> Result<seq<Option<Attachment>>, Error>, page: seq<Option<Attachment>>)
    ensures var x := ListAllAttachmentsForTask(base, taskId, statusOK, resp, decode);
            var got := Slurp(statusOK, resp);
            && (x.reply == Found(page) <==> !AllSpace(taskId) && got.Success? && decode(got.value) == Success(page))
            && (x.reply.Fail? <==> AllSpace(taskId) || got.Failure? || decode(got.value).Failure?)
  {
  }
}

=== FILE: customfields.dfy ===
/** Custom fields: the per-workspace listing and custom-field creation. */
module CustomFields {
  import opened Wrappers
  import opened Errors
  import opened Http
  import opened Paging
  import opened Envelope
  import opened Entities

  /** `GetCustomFields` through `pageForCustomFields`: pages through
      "/workspaces/<id>/custom_fields"; the workspace identifier is used as given. */
  function GetCustomFields(base: string, workspaceId: string, outs: seq<Fetch<CustomField>>): (tr: Trace<CustomField>)
    ensures |outs| > 0 ==> |tr.requests| > 0
                           && tr.requests[0] == Url(base + ("/workspaces/" + workspaceId + "/custom_fields"), map[])
    ensures forall i :: 0 < i < |tr.requests| ==> tr.requests[i] == Url(base, map[])
    ensures |tr.pages| <= |outs| && forall i :: 0 <= i < |tr.pages| ==> tr.pages[i] == Published(outs[i], false)
    ensures |tr.requests| == |tr.pages| && (|outs| > 0 ==> |tr.pages| > 0)
    ensures forall i :: 0 <= i < |tr.pages| - 1 ==> !Stops(outs[i])
    ensures tr.closed <==> |tr.pages| > 0 && Stops(outs[|tr.pages| - 1])
    ensures !tr.closed ==> |tr.pages| == |outs|
  {
    RestartUrl(base, None);
    Run(base, None, false, Target("/workspaces/" + workspaceId + "/custom_fields", map[]), outs)
  }

  /** `CreateCustomField`: the encoded request without its read-only fields, POSTed to
      "/custom_fields". */
  function CreateCustomField(base: string, encoded: Result<Values, Error>, statusOK: int -> bool, resp: Response,
                             decode: string -> Decoded<CustomField>): (x: Exchange<CustomField>)
    ensures Creates(x, base + "/custom_fields", encoded, statusOK, resp, decode)
    ensures x.sent.Some? ==> "num_hearts" !in x.sent.value.payload.values
  {
    CreateForm(base, "/custom_fields", encoded, statusOK, resp, decode)
  }
}

=== FILE: dates.dfy ===
/** The `YYYYMMDD` date value of a task's `due_on` field: a JSON string such as
    "2012-03-26" read into three int64 fields, printed back unpadded and memoised. */
module Dates {
  import opened Wrappers
  import opened Errors
  import opened Strings
  import opened Decimal

  /** Three int64 fields and the memoised text, which is empty until the date is first
      printed and is never cleared afterwards. */
  datatype Date = Date(yyyy: Int64, mm: Int64, dd: Int64, memo: string)

  /** The zero value a decoder starts from. */
  const Blank := Date(0, 0, 0, "")

  /** The receiver after `UnmarshalJSON`, and the error it returned. */
  datatype Unmarshalled = Unmarshalled(after: Date, err: Option<Error>)

  /** What `String` returned, and the receiver after the call (nil stays nil). */
  datatype Printed = Printed(text: string, after: Option<Date>)

  /** Removes every carriage return, as Go does inside a raw string literal. */
  function DropCR(s: string): (r: string)
    ensures '\r' !in r
    ensures |r| == |s| - Count(s, '\r')
  {
    if |s| == 0 then ""
    else (if s[0] == '\r' then "" else [s[0]]) + DropCR(s[1..])
  }

  /** `strconv.Unquote` on a Go string literal: a back-quoted raw literal, a double-quoted
      literal, or a single-quoted literal of at most one character. The empty `''` passes,
      because decoding a rune from nothing gives a zero-width error rune, which the
      one-rune test lets through. Literals containing a backslash escape are rejected
      (see README). */
  function Unquote(s: string): (r: Result<string, Error>)
    ensures r.Success? ==> |s| >= 2 && s[0] == s[|s| - 1] && s[0] in "`\"'"
    ensures r.Success? && s[0] == '"' ==> r.value == s[1..|s| - 1]
    ensures |s| >= 2 && s[0] == '"' && s[|s| - 1] == '"'
            && (forall k :: 1 <= k < |s| - 1 ==> s[k] != '"' && s[k] != '\\' && s[k] != '\n')
            ==> r == Success(s[1..|s| - 1])
    ensures |s| >= 2 && s[0] == '`' && s[|s| - 1] == '`' && (forall k :: 1 <= k < |s| - 1 ==> s[k] != '`')
            ==> r == Success(DropCR(s[1..|s| - 1]))
    ensures |s| == 3 && s[0] == '\'' && s[2] == '\'' && s[1] != '\'' && s[1] != '\\' && s[1] != '\n'
            ==> r == Success([s[1]])
    ensures s == "''" ==> r == Success("")
    ensures r.Success? <==>
              && |s| >= 2 && s[0] == s[|s| - 1] && s[0] in "`\"'" && s[0] !in s[1..|s| - 1]
              && (s[0] != '`' ==> '\\' !in s[1..|s| - 1] && '\n' !in s[1..|s| - 1] && (s[0] == '\'' ==> |s| <= 3))
    ensures r.Success? ==> r.value == if s[0] == '`' then DropCR(s[1..|s| - 1]) else s[1..|s| - 1]
  {
    if |s| < 2 then Failure(UnquoteSyntax)
    else
      var q := s[0];
      var inner := s[1..|s| - 1];
      assert forall k :: 0 <= k < |inner| ==> inner[k] == s[k + 1];
      assert |s| == 3 ==> inner == [s[1]];
      if s[|s| - 1] != q || q in inner then Failure(UnquoteSyntax)
      else if q == '`' then Success(DropCR(inner))
      else if q != '"' && q != '\'' then Failure(UnquoteSyntax)
      else if '\\' in inner || '\n' in inner then Failure(UnquoteSyntax)
      else if q == '\'' && |inner| > 1 then Failure(UnquoteSyntax)
      else Success(inner)
  }

  /** Literals that are not valid Go literals are refused: a bare double quote or a newline
      inside a double-quoted literal, and more than one character between single quotes. */
  lemma UnquoteRejects()
    ensures Unquote("\"a\"b\"").Failure?
    ensures Unquote("\"a\nb\"").Failure?
    ensures Unquote("'ab'").Failure?
  {
    var quoted := "\"a\"b\"";
    assert quoted[1..|quoted| - 1][1] == '"';
    var broken := "\"a\nb\"";
    assert broken[1..|broken| - 1][1] == '\n';
  }

  /** The JSON text of a string made of digits and dashes: the string between double quotes. */
  function Quote(s: string): string {
    "\"" + s + "\""
  }

  /** Parses every part in order and stops at the first part that is not an int64. */
  function ParseAll(parts: seq<string>): (r: Result<seq<Int64>, Error>)
    ensures r.Success? <==> forall i :: 0 <= i < |parts| ==> ParseInt(parts[i]).Success?
    ensures r.Success? ==> |r.value| == |parts|
                           && forall i :: 0 <= i < |parts| ==> ParseInt(parts[i]) == Success(r.value[i])
    ensures r.Failure? ==> exists i :: 0 <= i < |parts| && ParseInt(parts[i]) == Failure(r.error)
                                       && forall j :: 0 <= j < i ==> ParseInt(parts[j]).Success?
  {
    if |parts| == 0 then Success([])
    else
      match ParseInt(parts[0])
      case Failure(e) => Failure(e)
      case Success(v) =>
        match ParseAll(parts[1..])
        case Failure(e) =>
          assert forall i :: 1 <= i < |parts| ==> parts[i] == parts[1..][i - 1];
          Failure(e)
        case Success(vs) =>
          assert forall i :: 1 <= i < |parts| ==> parts[i] == parts[1..][i - 1];
          Success([v] + vs)
  }

  /** `UnmarshalJSON`: unquote, split on '-', demand at least three parts, parse every part
      (extras included) as a base-10 int64, then store the first three. On error the
      receiver is left as it was; the memoised text is never touched. */
  function UnmarshalJSON(d: Date, b: string): (r: Unmarshalled)
    ensures r.after.memo == d.memo
    ensures r.err.Some? ==> r.after == d
    ensures r.err.None? <==>
              && Unquote(b).Success?
              && |Split(Unquote(b).value, '-')| >= 3
              && forall i :: 0 <= i < |Split(Unquote(b).value, '-')| ==>
                               ParseInt(Split(Unquote(b).value, '-')[i]).Success?
    ensures r.err.None? ==>
              var parts := Split(Unquote(b).value, '-');
              && ParseInt(parts[0]) == Success(r.after.yyyy)
              && ParseInt(parts[1]) == Success(r.after.mm)
              && ParseInt(parts[2]) == Success(r.after.dd)
  {
    match Unquote(b)
    case Failure(e) => Unmarshalled(d, Some(e))
    case Success(unquoted) =>
      var splits := Split(unquoted, '-');
      if |splits| < 3 then Unmarshalled(d, Some(ExpectingYMD))
      else
        match ParseAll(splits)
        case Failure(e) => Unmarshalled(d, Some(e))
        case Success(vs) => Unmarshalled(d.(yyyy := vs[0], mm := vs[1], dd := vs[2]), None)
  }

  /** `fmt.Sprintf("%d-%d-%d", ...)`: no zero padding. */
  function Format(y: Int64, m: Int64, d: Int64): string {
    Show(y) + "-" + Show(m) + "-" + Show(d)
  }

  /** `String`: "" for a nil date; otherwise the memoised text, computed from the fields on the
      first call and kept from then on. Only the memo of the receiver changes. */
  function Text(d: Option<Date>): (r: Printed)
    ensures d.None? <==> r.after.None?
    ensures d.None? ==> r.text == ""
    ensures d.Some? ==> r.after == Some(d.value.(memo := r.text)) && r.text != ""
    ensures d.Some? && d.value.memo != "" ==> r.text == d.value.memo
    ensures d.Some? && d.value.memo == "" ==>
              r.text == Show(d.value.yyyy) + "-" + Show(d.value.mm) + "-" + Show(d.value.dd)
    ensures d.Some? && d.value.memo == "" && d.value.yyyy >= 0 && d.value.mm >= 0 && d.value.dd >= 0 ==>
              Split(r.text, '-') == [Show(d.value.yyyy), Show(d.value.mm), Show(d.value.dd)]
  {
    match d
    case None => Printed("", None)
    case Some(date) =>
      if date.memo != "" then Printed(date.memo, d)
      else
        var text := Format(date.yyyy, date.mm, date.dd);
        FormatSplits(date.yyyy, date.mm, date.dd);
        Printed(text, Some(date.(memo := text)))
  }

  /** Printing non-negative fields gives exactly three dash-free parts, one per field. */
  lemma FormatSplits(y: Int64, m: Int64, d: Int64)
    ensures 0 <= y && 0 <= m && 0 <= d ==> Split(Format(y, m, d), '-') == [Show(y), Show(m), Show(d)]
  {
    if 0 <= y && 0 <= m && 0 <= d {
      var parts := [Show(y), Show(m), Show(d)];
      SplitJoin(parts, '-');
      assert parts[1..][1..] == [Show(d)];
      assert Join(parts[1..], "-") == Show(m) + "-" + Show(d);
      assert Join(parts, "-") == Format(y, m, d);
    }
  }

  /** A printed text contains no quote, backslash or newline, so quoting it and unquoting it
      gives it back. */
  lemma UnquoteFormat(y: Int64, m: Int64, d: Int64)
    ensures Unquote(Quote(Format(y, m, d))) == Success(Format(y, m, d))
  {
    var t := Format(y, m, d);
    var q := Quote(t);
    assert q[1..|q| - 1] == t;
    forall k | 0 <= k < |t| ensures IsDigit(t[k]) || t[k] == '-' {
      var a, b := Show(y), Show(m);
      if k < |a| {
        assert t[k] == a[k];
      } else if k == |a| || k == |a| + 1 + |b| {
      } else if k < |a| + 1 + |b| {
        assert t[k] == b[k - |a| - 1];
      } else {
        assert t[k] == Show(d)[k - |a| - |b| - 2];
      }
    }
  }

  /** Printing a freshly decoded date and decoding the printed text again succeeds exactly
      when no field is negative (a minus sign reads as one more separator, leaving an empty
      part), and then gives back the same three fields. */
  lemma {:induction false} PrintThenParse(d: Date, e: Date)
    requires d.memo == ""
    ensures var u := UnmarshalJSON(e, Quote(Text(Some(d)).text));
            && (u.err.None? <==> 0 <= d.yyyy && 0 <= d.mm && 0 <= d.dd)
            && (u.err.None? ==> u.after == e.(yyyy := d.yyyy, mm := d.mm, dd := d.dd))
  {
    assert Text(Some(d)).text == Format(d.yyyy, d.mm, d.dd);
    if 0 <= d.yyyy && 0 <= d.mm && 0 <= d.dd {
      FormatParses(d.yyyy, d.mm, d.dd, e);
    } else {
      NegativeRejected(d.yyyy, d.mm, d.dd, e);
    }
  }

  lemma FormatParses(y: Int64, m: Int64, d: Int64, e: Date)
    requires 0 <= y && 0 <= m && 0 <= d
    ensures UnmarshalJSON(e, Quote(Format(y, m, d))) == Unmarshalled(e.(yyyy := y, mm := m, dd := d), None)
  {
    UnquoteFormat(y, m, d);
    FormatSplits(y, m, d);
    ParseShow(y);
    ParseShow(m);
    ParseShow(d);
  }

  lemma NegativeRejected(y: Int64, m: Int64, d: Int64, e: Date)
    requires y < 0 || m < 0 || d < 0
    ensures UnmarshalJSON(e, Quote(Format(y, m, d))).err.Some?
  {
    UnquoteFormat(y, m, d);
    var i := EmptyPart(y, m, d);
    assert ParseInt(Split(Format(y, m, d), '-')[i]).Failure?;
  }

  /** When some field is negative, the printed text splits with an empty part. */
  lemma EmptyPart(y: Int64, m: Int64, d: Int64) returns (i: nat)
    requires y < 0 || m < 0 || d < 0
    ensures i < |Split(Format(y, m, d), '-')| && Split(Format(y, m, d), '-')[i] == ""
  {
    if y < 0 {
      NegativeYear(y, m, d);
      i := 0;
    } else if m < 0 {
      NegativeMonth(y, m, d);
      i := 1;
    } else {
      NegativeDay(y, m, d);
      i := 2;
    }
  }

  lemma NegativeYear(y: Int64, m: Int64, d: Int64)
    requires y < 0
    ensures Split(Format(y, m, d), '-')[0] == ""
  {
    var rest := Show(y)[1..] + "-" + Show(m) + "-" + Show(d);
    FormatShapes(y, m, d);
    SplitLeadingDash(rest);
  }

  lemma NegativeMonth(y: Int64, m: Int64, d: Int64)
    requires 0 <= y && m < 0
    ensures |Split(Format(y, m, d), '-')| > 1 && Split(Format(y, m, d), '-')[1] == ""
  {
    var tail := Show(m)[1..] + "-" + Show(d);
    FormatShapes(y, m, d);
    SplitLeadingDash(tail);
    SplitFirst(Show(y), '-', "-" + tail);
  }

  lemma NegativeDay(y: Int64, m: Int64, d: Int64)
    requires 0 <= y && 0 <= m && d < 0
    ensures |Split(Format(y, m, d), '-')| > 2 && Split(Format(y, m, d), '-')[2] == ""
  {
    var tail := Show(d)[1..];
    FormatShapes(y, m, d);
    SplitLeadingDash(tail);
    SplitFirst(Show(m), '-', "-" + tail);
    SplitFirst(Show(y), '-', Show(m) + "-" + ("-" + tail));
  }

  /** Where the minus sign of a negative field lands in the printed text. */
  lemma FormatShapes(y: Int64, m: Int64, d: Int64)
    ensures y < 0 ==> Format(y, m, d) == "-" + (Show(y)[1..] + "-" + Show(m) + "-" + Show(d))
    ensures m < 0 ==> Format(y, m, d) == Show(y) + "-" + ("-" + (Show(m)[1..] + "-" + Show(d)))
    ensures d < 0 ==> Format(y, m, d) == Show(y) + "-" + (Show(m) + "-" + ("-" + Show(d)[1..]))
  {
    var a, b, c := Show(y), Show(m), Show(d);
    assert Format(y, m, d) == a + "-" + b + "-" + c;
    ConcatShapes(a, b, c);
  }

  lemma ConcatShapes(a: string, b: string, c: string)
    requires |a| > 0 && |b| > 0 && |c| > 0
    ensures a[0] == '-' ==> a + "-" + b + "-" + c == "-" + (a[1..] + "-" + b + "-" + c)
    ensures b[0] == '-' ==> a + "-" + b + "-" + c == a + "-" + ("-" + (b[1..] + "-" + c))
    ensures c[0] == '-' ==> a + "-" + b + "-" + c == a + "-" + (b + "-" + ("-" + c[1..]))
  {
    assert a == [a[0]] + a[1..];
    assert b == [b[0]] + b[1..];
    assert c == [c[0]] + c[1..];
  }

  lemma SplitLeadingDash(rest: string)
    ensures Split("-" + rest, '-') == [""] + Split(rest, '-')
  {
    SplitFirst("", '-', rest);
    assert "" + "-" + rest == "-" + rest;
  }

  /** Decodes each text in turn into the same receiver, ignoring errors as a caller that
      re-decodes would. */
  function UnmarshalEach(d: Date, texts: seq<string>): Date
    decreases |texts|
  {
    if |texts| == 0 then d else UnmarshalEach(UnmarshalJSON(d, texts[0]).after, texts[1..])
  }

  /** Once a date has been printed, every later print returns the same text, however many
      times the fields are decoded again in between. */
  lemma {:induction false} PrintIsMemoised(d: Date, texts: seq<string>)
    ensures var first := Text(Some(d));
            Text(Some(UnmarshalEach(first.after.value, texts))).text == first.text
  {
    MemoKept(Text(Some(d)).after.value, texts);
  }

  lemma {:induction false} MemoKept(d: Date, texts: seq<string>)
    ensures UnmarshalEach(d, texts).memo == d.memo
    decreases |texts|
  {
    if |texts| > 0 {
      MemoKept(UnmarshalJSON(d, texts[0]).after, texts[1..]);
    }
  }

  /** The empty single-quoted literal unquotes, but its one empty part is too few: the date
      is refused with "expecting YYYY-MM-DD" and left unchanged. */
  lemma EmptyQuotedDateRejected(d: Date)
    ensures Unquote("''") == Success("")
    ensures UnmarshalJSON(d, "''") == Unmarshalled(d, Some(ExpectingYMD))
  {
    assert Split("", '-') == [""];
  }

  /** "2012-03-26" decodes to the fields 2012, 3 and 26 ... */
  lemma DecodeExample()
    ensures UnmarshalJSON(Blank, "\"2012-03-26\"") == Unmarshalled(Date(2012, 3, 26, ""), None)
  {
    ExampleText();
    ExampleParts();
    ExampleFields();
  }

  /** ... which print back unpadded, as "2012-3-26". */
  lemma PrintExample()
    ensures Text(Some(Date(2012, 3, 26, ""))).text == "2012-3-26"
  {
    ShowExample();
    assert Format(2012, 3, 26) == "2012-3-26";
  }

  lemma ShowExample()
    ensures Show(2012) == "2012" && Show(3) == "3" && Show(26) == "26"
  {
    assert NatDigits(20) == "20";
    assert NatDigits(201) == "201";
    assert NatDigits(2012) == "2012";
    assert NatDigits(26) == "26";
  }

  lemma ExampleFields()
    ensures ParseAll(["2012", "03", "26"]) == Success([2012, 3, 26])
  {
    ExampleYear();
    assert "03"[..1] == "0";
    assert "26"[..1] == "2";
    ParseIntSpec("03");
    ParseIntSpec("26");
    var p := ["2012", "03", "26"];
    var r := ParseAll(p);
    assert forall i :: 0 <= i < |p| ==> ParseInt(p[i]).Success?;
    var want: seq<Int64> := [2012, 3, 26];
    assert r.value == want;
  }

  lemma ExampleText()
    ensures Unquote("\"2012-03-26\"") == Success("2012-03-26")
  {
    var q := "\"2012-03-26\"";
    assert q[1..|q| - 1] == "2012-03-26";
  }

  lemma ExampleParts()
    ensures Split("2012-03-26", '-') == ["2012", "03", "26"]
  {
    var parts := ["2012", "03", "26"];
    assert Join(parts, "-") == "2012-03-26";
    SplitJoin(parts, '-');
  }

  lemma ExampleYear()
    ensures ParseInt("2012") == Success(2012)
    ensures Show(2012) == "2012"
  {
    assert ValueOf("2012"[..3]) == 201 by {
      assert "2012"[..3] == "201";
      assert "201"[..2] == "20";
      assert "20"[..1] == "2";
    }
    ParseIntSpec("2012");
    ShowExample();
  }
}

=== FILE: decimal.dfy ===
/** Base-10 integers as Go reads them with `strconv.ParseInt(s, 10, 64)` and prints them
    with `fmt`'s `%d` verb. */
module Decimal {
  import opened Wrappers
  import opened Errors

  const MaxUint64: nat := 0xFFFF_FFFF_FFFF_FFFF
  const MaxInt64: int := 0x7FFF_FFFF_FFFF_FFFF
  const MinInt64: int := -0x8000_0000_0000_0000
  /** The first accumulator value whose product by ten no longer fits 64 bits. */
  const Cutoff: nat := MaxUint64 / 10 + 1

  /** Go's `int64`. */
  type Int64 = x: int | MinInt64 <= x <= MaxInt64

  predicate IsDigit(c: char) {
    '0' <= c <= '9'
  }

  predicate AllDigits(s: string) {
    forall i :: 0 <= i < |s| ==> IsDigit(s[i])
  }

  function DigitOf(c: char): nat
    requires IsDigit(c)
  {
    c as int - '0' as int
  }

  function CharOf(d: nat): char
    requires d < 10
  {
    ('0' as int + d) as char
  }

  /** The number a string of decimal digits denotes (leading zeros allowed). */
  function ValueOf(s: string): nat
    requires AllDigits(s)
  {
    if |s| == 0 then 0 else ValueOf(s[..|s| - 1]) * 10 + DigitOf(s[|s| - 1])
  }

  /** The unpadded decimal digits of `n`, which denote `n` again. */
  function NatDigits(n: nat): (s: string)
    ensures |s| > 0 && AllDigits(s)
    ensures ValueOf(s) == n
    ensures n > 0 ==> s[0] != '0'
    ensures n == 0 ==> s == "0"
  {
    if n < 10 then [CharOf(n)]
    else
      var s := NatDigits(n / 10) + [CharOf(n % 10)];
      assert s[..|s| - 1] == NatDigits(n / 10);
      s
  }

  /** `fmt.Sprintf("%d", i)`: a minus sign for negative numbers, then the digits. */
  function Show(i: int): (s: string)
    ensures |s| > 0
    ensures '-' in s <==> i < 0
    ensures forall k :: 0 <= k < |s| ==> IsDigit(s[k]) || (k == 0 && s[k] == '-')
    ensures s[0] != '-' && |s| > 1 ==> s[0] != '0'
    ensures s[0] == '-' ==> |s| > 1 && s[1] != '0'
  {
    if i < 0 then "-" + NatDigits(-i)
    else
      var s := NatDigits(i);
      assert forall k :: 0 <= k < |s| ==> s[k] != '-';
      s
  }

  /** The digit loop of `strconv.ParseUint`: each character is checked to be a digit before
      the accumulator is checked for 64-bit overflow. Errors name the whole input `num`. */
  function Accumulate(s: string, i: nat, n: nat, num: string): Result<nat, Error>
    requires i <= |s|
    decreases |s| - i
  {
    if i == |s| then Success(n)
    else if !IsDigit(s[i]) then Failure(NumSyntax(num))
    else if n >= Cutoff then Failure(NumRange(num))
    else
      var n1 := n * 10 + DigitOf(s[i]);
      if n1 > MaxUint64 then Failure(NumRange(num)) else Accumulate(s, i + 1, n1, num)
  }

  /** `strconv.ParseUint(s, 10, 64)`, reporting errors against `num`. */
  function ParseUint(s: string, num: string): Result<nat, Error> {
    if |s| == 0 then Failure(NumSyntax(num)) else Accumulate(s, 0, 0, num)
  }

  /** `strconv.ParseInt(s, 10, 64)`: an optional sign, then ParseUint, then the signed range. */
  function ParseInt(s: string): Result<Int64, Error> {
    if |s| == 0 then Failure(NumSyntax(s))
    else
      var neg := s[0] == '-';
      var digits := if s[0] == '+' || s[0] == '-' then s[1..] else s;
      match ParseUint(digits, s)
      case Failure(e) => Failure(e)
      case Success(u) =>
        if !neg && u > MaxInt64 then Failure(NumRange(s))
        else if neg && u > -MinInt64 then Failure(NumRange(s))
        else Success(if neg then -(u as int) else u as int)
  }

  /** The texts ParseInt is meant to accept: an optional sign and at least one digit. */
  predicate Numeral(s: string) {
    var digits := if |s| > 0 && (s[0] == '+' || s[0] == '-') then s[1..] else s;
    |digits| > 0 && AllDigits(digits)
  }

  /** The value a numeral denotes, sign included. */
  function SignedValue(s: string): int
    requires Numeral(s)
  {
    if s[0] == '-' then -(ValueOf(s[1..]) as int)
    else if s[0] == '+' then ValueOf(s[1..])
    else ValueOf(s)
  }

  /** A digit string's value is at least that of each of its prefixes. */
  lemma {:induction false} PrefixValueBelow(s: string, i: nat)
    requires AllDigits(s) && i <= |s|
    ensures AllDigits(s[..i]) && ValueOf(s[..i]) <= ValueOf(s)
    decreases |s| - i
  {
    if i == |s| {
      assert s[..i] == s;
    } else {
      PrefixValueBelow(s, i + 1);
      assert s[..i + 1][..i] == s[..i];
      assert ValueOf(s[..i + 1]) == ValueOf(s[..i]) * 10 + DigitOf(s[i]);
    }
  }

  /** The digit loop succeeds exactly on an all-digit text whose value fits 64 bits, and then
      yields that value. */
  lemma {:induction false} AccumulateSpec(s: string, i: nat, num: string)
    requires i <= |s| && AllDigits(s[..i]) && ValueOf(s[..i]) <= MaxUint64
    ensures var r := Accumulate(s, i, ValueOf(s[..i]), num);
            && (r.Success? <==> AllDigits(s) && ValueOf(s) <= MaxUint64)
            && (r.Success? ==> r.value == ValueOf(s))
    decreases |s| - i
  {
    if i == |s| {
      assert s[..i] == s;
    } else {
      var n := ValueOf(s[..i]);
      if IsDigit(s[i]) {
        var t := s[..i + 1];
        assert t[..i] == s[..i];
        assert AllDigits(t);
        assert ValueOf(t) == n * 10 + DigitOf(s[i]);
        if ValueOf(t) <= MaxUint64 {
          AccumulateSpec(s, i + 1, num);
        } else if AllDigits(s) {
          PrefixValueBelow(s, i + 1);
        }
      } else {
        assert !AllDigits(s);
      }
    }
  }

  /** ParseUint succeeds exactly on a non-empty digit string that fits 64 bits. */
  lemma ParseUintSpec(s: string, num: string)
    ensures ParseUint(s, num).Success? <==> |s| > 0 && AllDigits(s) && ValueOf(s) <= MaxUint64
    ensures ParseUint(s, num).Success? ==> ParseUint(s, num).value == ValueOf(s)
  {
    if |s| > 0 {
      assert s[..0] == "";
      AccumulateSpec(s, 0, num);
    }
  }

  /** ParseInt accepts exactly the numerals whose signed value is an int64, and returns
      that value. */
  lemma ParseIntSpec(s: string)
    ensures ParseInt(s).Success? <==> Numeral(s) && MinInt64 <= SignedValue(s) <= MaxInt64
    ensures ParseInt(s).Success? ==> ParseInt(s).value == SignedValue(s)
  {
    if |s| > 0 {
      var digits := if s[0] == '+' || s[0] == '-' then s[1..] else s;
      ParseUintSpec(digits, s);
    }
  }

  /** Reading back what `%d` printed gives the same int64. */
  lemma ParseShow(i: Int64)
    ensures ParseInt(Show(i)) == Success(i)
  {
    var s := Show(i);
    if i < 0 {
      assert s[1..] == NatDigits(-(i as int));
    }
    ParseIntSpec(s);
  }
}

=== FILE: entities.dfy ===
/** The resource records the client decodes. Time stamps, floating-point values and the
    `User` and `Project` types are not part of these records. */
module Entities {
  import opened Wrappers
  import opened Dates

  /** `NamedAndIDdEntity`: a name and a global identifier (`gid`). */
  datatype Entity = Entity(name: string, gid: string)

  datatype Workspace = Workspace(entity: Entity, emailDomains: seq<string>, isOrganisation: bool)

  datatype Tag = Tag(entity: Entity, color: string, permalinkUrl: string, workspace: Option<Workspace>)

  datatype CustomField = CustomField(
    entity: Entity,
    currencyCode: string,
    customLabel: string,
    customLabelPosition: string,
    description: string,
    enabled: Option<bool>,
    subtype: string,
    workspaceId: string)

  datatype Story = Story(text: string, htmlText: string, pinned: bool, sticker: string)

  datatype Attachment = Attachment(
    id: int,
    downloadUrl: Option<string>,
    host: Option<string>,
    name: Option<string>,
    parent: Option<Entity>,
    viewUrl: Option<string>)

  datatype Membership = Membership(project: Option<Entity>, section: Option<Entity>)

  datatype Task = Task(
    entity: Entity,
    assignee: Option<Entity>,
    completed: bool,
    assigneeStatus: string,
    customFields: seq<CustomField>,
    dueOn: Option<Date>,
    hearted: bool,
    hearts: seq<Entity>,
    heartCount: int,
    notes: string,
    parent: Option<Task>,
    workspace: Option<Entity>,
    memberships: seq<Membership>,
    tags: seq<Tag>)
}

=== FILE: envelope.dfy ===
/** Single-item request/response cycles: the `{"data": ...}` envelope, the two ways the
    client treats a null `data`, the "first element or not found" rule, and the stripping
    of read-only form fields before a create. */
module Envelope {
  import opened Wrappers
  import opened Errors
  import opened Http
  import opened Strings

  /** What the JSON decoder made of a `{"data": ...}` body: an error, or the data, which is
      None when it was null or absent. */
  datatype Decoded<T> = Malformed(err: Error) | Decoded(data: Option<T>)

  /** What a single-item call returns: an item, `(nil, nil)`, an error, or a run-time panic
      from indexing an empty slice. */
  datatype Reply<T> = Found(item: T) | Nil | Fail(err: Error) | IndexPanic

  /** The request a call sent (None when it failed before any network call) and its reply. */
  datatype Exchange<T> = Exchange(sent: Option<Request>, reply: Reply<T>)

  /** A call that returns only an error (nil on success). */
  datatype Done = Done(sent: Option<Request>, err: Option<Error>)

  /** `parseOutTaskFromData`, `parseOutTagFromData`, `parseOutCustomFieldFromData`,
      `parseOutStoryFromData`: a decode error is returned, a null `data` is `(nil, nil)`,
      otherwise the item. */
  function ParseNullable<T>(d: Decoded<T>): (r: Reply<T>)
    ensures r.Fail? <==> d.Malformed?
    ensures r.Fail? ==> r.err == d.err
    ensures r.Nil? <==> d == Decoded(None)
    ensures r.Found? <==> d.Decoded? && d.data.Some?
    ensures r.Found? ==> r.item == d.data.value
  {
    match d
    case Malformed(e) => Fail(e)
    case Decoded(None) => Nil
    case Decoded(Some(x)) => Found(x)
  }

  /** `parseOutAttachmentFromData`: like ParseNullable, except that a null `data` is the
      error `missing`. */
  function ParseRequired<T>(d: Decoded<T>, missing: Error): (r: Reply<T>)
    ensures !r.Nil? && !r.IndexPanic?
    ensures r == (if ParseNullable(d).Nil? then Fail(missing) else ParseNullable(d))
  {
    match d
    case Malformed(e) => Fail(e)
    case Decoded(None) => Fail(missing)
    case Decoded(Some(x)) => Found(x)
  }

  /** `GetTag` and `GetWorkspace` after the body arrived: the body is decoded as a list page;
      a decode error is returned; the first element is returned when it is non-nil, and
      `notFound` when it is nil; an empty or null list panics on the index. */
  function FirstOrNotFound<T>(d: Decoded<seq<Option<T>>>, notFound: Error): (r: Reply<T>)
    ensures d.Malformed? ==> r == Fail(d.err)
    ensures d.Decoded? && d.data.Some? && |d.data.value| > 0 && d.data.value[0].None? ==> r == Fail(notFound)
    ensures r.IndexPanic? <==> d.Decoded? && (d.data.None? || |d.data.value| == 0)
    ensures r.Found? <==> d.Decoded? && d.data.Some? && |d.data.value| > 0 && d.data.value[0].Some?
    ensures r.Found? ==> r.item == d.data.value[0].value
    ensures !r.Nil?
  {
    match d
    case Malformed(e) => Fail(e)
    case Decoded(None) => IndexPanic
    case Decoded(Some(items)) =>
      if |items| == 0 then IndexPanic
      else if items[0].Some? then Found(items[0].value)
      else Fail(notFound)
  }

  /** Once the list body is known to hold a first element, `GetTag` and `GetWorkspace` treat
      it as `parseOutAttachmentFromData` treats a single item: nil is the not-found error. */
  lemma FirstIsRequired<T>(d: Decoded<seq<Option<T>>>, notFound: Error)
    requires d.Malformed? || (d.data.Some? && |d.data.value| > 0)
    ensures FirstOrNotFound(d, notFound)
            == ParseRequired(if d.Malformed? then Malformed(d.err) else Decoded(d.data.value[0]), notFound)
  {
  }

  /** Sends `req` and hands the body, if one was accepted, to `unwrap`. */
  function Call<T>(req: Request, statusOK: int -> bool, resp: Response, unwrap: string -> Reply<T>): (x: Exchange<T>)
    ensures x.sent == Some(req)
    ensures Slurp(statusOK, resp).Failure? ==> x.reply == Fail(Slurp(statusOK, resp).error)
    ensures Slurp(statusOK, resp).Success? ==> x.reply == unwrap(Slurp(statusOK, resp).value)
  {
    match Slurp(statusOK, resp)
    case Failure(e) => Exchange(Some(req), Fail(e))
    case Success(body) => Exchange(Some(req), unwrap(body))
  }

  /** `readOnlyFields`: server-computed fields a create request must not send. */
  const ReadOnlyFields: seq<string> := ["num_hearts"]

  /** Deletes each of `fields` from the form values, as the create calls do with `qs.Del`:
      exactly those keys disappear and every other key keeps its values. */
  function Strip(form: Values, fields: seq<string>): (r: Values)
    ensures r.Keys == form.Keys - set f | f in fields
    ensures forall k :: k in r ==> r[k] == form[k]
    decreases |fields|
  {
    if |fields| == 0 then form
    else Strip(map k | k in form && k != fields[0] :: form[k], fields[1..])
  }

  /** What a create call does with the encoded form values `encoded` and the target URL text
      `target`: an encoding error is returned before anything is sent; otherwise one POST of a
      URL-encoded form, with no query, to `target`, whose form lacks every read-only key and
      keeps every other key with its values. A failed exchange returns its error; an accepted
      body is unwrapped with `data` null giving `(nil, nil)`. */
  ghost predicate Creates<T>(x: Exchange<T>, target: string, encoded: Result<Values, Error>, statusOK: int -> bool,
                              resp: Response, decode: string -> Decoded<T>)
  {
    && (encoded.Failure? <==> x.sent.None?)
    && (encoded.Failure? ==> x.reply == Fail(encoded.error))
    && (x.sent.Some? ==> && x.sent.value.verb == Post
                         && x.sent.value.url == Url(target, map[])
                         && x.sent.value.payload.Form?
                         && var form := x.sent.value.payload.values;
                            && (forall f :: f in ReadOnlyFields ==> f !in form)
                            && (forall k :: k in encoded.value && k !in ReadOnlyFields ==> k in form && form[k] == encoded.value[k])
                            && form.Keys <= encoded.value.Keys)
    && (x.sent.Some? && Slurp(statusOK, resp).Failure? ==> x.reply == Fail(Slurp(statusOK, resp).error))
    && (x.sent.Some? && Slurp(statusOK, resp).Success? ==>
          x.reply == ParseNullable(decode(Slurp(statusOK, resp).value)))
  }

  /** `CreateTag`, `CreateCustomField` and `CreateStory`: the request descriptor's form values
      lose their read-only keys and are POSTed as a URL-encoded form to `base + route`. */
  function CreateForm<T>(base: string, route: string, encoded: Result<Values, Error>, statusOK: int -> bool,
                         resp: Response, decode: string -> Decoded<T>): (x: Exchange<T>)
    ensures Creates(x, base + route, encoded, statusOK, resp, decode)
    ensures x.sent.Some? ==> "num_hearts" !in x.sent.value.payload.values
  {
    match encoded
    case Failure(e) => Exchange(None, Fail(e))
    case Success(qs) =>
      Call(Request(Post, Url(base + route, map[]), Form(Strip(qs, ReadOnlyFields))), statusOK, resp,
           body => ParseNullable(decode(body)))
  }

  /** The identifier check of `FindTaskByID`, `DeleteTask`, `FindAttachmentByID` and
      `ListAllAttachmentsForTask`: the identifier is trimmed of white space, and a blank one
      is the error `blank`. */
  function RequireId(id: string, blank: Error): (r: Result<string, Error>)
    ensures r.Failure? <==> AllSpace(id)
    ensures r.Failure? ==> r.error == blank
    ensures r.Success? ==> r.value == TrimSpace(id) && |r.value| > 0
                           && !IsSpace(r.value[0]) && !IsSpace(r.value[|r.value| - 1])
  {
    var trimmed := TrimSpace(id);
    if trimmed == "" then Failure(blank) else Success(trimmed)
  }
}

=== FILE: errors.dfy ===
/** The error values the client can return or publish. */
module Errors {

  datatype Error =
    /** A failure reported by the HTTP client itself (connection, timeout, bad request). */
    | Transport(detail: string)
    /** `HTTPError`: a non-OK status, with its message and numeric code. */
    | Status(code: int, message: string)
    /** Reading a response body failed part-way. */
    | Read(detail: string)
    /** The JSON decoder rejected a body. */
    | Decode(detail: string)
    /** `strconv.ErrSyntax` as returned by `strconv.Unquote`. */
    | UnquoteSyntax
    /** `*strconv.NumError` wrapping `ErrSyntax`, for the text `num`. */
    | NumSyntax(num: string)
    /** `*strconv.NumError` wrapping `ErrRange`, for the text `num`. */
    | NumRange(num: string)
    /** "expecting YYYY-MM-DD" */
    | ExpectingYMD
    /** `errEmptyTaskID` */
    | EmptyTaskID
    /** `errEmptyAttachmentID` */
    | EmptyAttachmentID
    /** `errNilBody` */
    | NilBody
    /** `errNoAttachment` */
    | NoAttachment
    /** `io.EOF` from a read of an empty stream. */
    | EndOfStream
    /** A `fmt.Errorf` "No ... found with ID ..." message. */
    | NotFound(message: string)
}

=== FILE: http.dfy ===
/** The request and response shapes the client exchanges with the HTTP transport, and the
    status classification of `doAuthReqThenSlurpBody`. */
module Http {
  import opened Wrappers
  import opened Errors

  type byte = b: int | 0 <= b < 256

  /** `url.Values`, also used for form bodies: each key maps to its list of values. */
  type Values = map<string, seq<string>>

  /** `Values.Add`: appends `value` to the list under `key`, leaving other keys alone. */
  function Add(v: Values, key: string, value: string): (r: Values)
    ensures r.Keys == v.Keys + {key}
    ensures r[key] == (if key in v then v[key] else []) + [value]
    ensures forall k :: k in v && k != key ==> r[k] == v[k]
  {
    v[key := (if key in v then v[key] else []) + [value]]
  }

  /** A request URL: the scheme, host and path text, and the decoded query. */
  datatype Url = Url(target: string, query: Values)

  datatype Method = Get | Post | Delete

  /** One part of a multipart body. */
  datatype Part =
    | FilePart(header: map<string, seq<string>>, content: seq<byte>)
    | FieldPart(name: string, value: string)

  /** The body of a request: none, URL-encoded form values, or a multipart form. */
  datatype Payload = NoPayload | Form(values: Values) | Multipart(parts: seq<Part>)

  datatype Request = Request(verb: Method, url: Url, payload: Payload)

  /** What the transport gives back: no response at all, or a status line and the body
      bytes that could be read, with the error that stopped the read if any. */
  datatype Response =
    | NoResponse(detail: string)
    | Response(code: int, status: string, body: string, readErr: Option<string>)

  /** `doAuthReqThenSlurpBody` after the request was sent. A transport failure passes through;
      a status the client does not accept (`statusOK` is false) becomes an `HTTPError`
      carrying the code and, as message, the body when it is non-empty and the status text
      otherwise; an accepted status yields the body unless reading it failed. */
  function Slurp(statusOK: int -> bool, r: Response): (res: Result<string, Error>)
    ensures res.Success? <==> r.Response? && statusOK(r.code) && r.readErr.None?
    ensures res.Success? ==> res.value == r.body
    ensures r.NoResponse? ==> res == Failure(Transport(r.detail))
    ensures (res.Failure? && res.error.Status?) <==> r.Response? && !statusOK(r.code)
    ensures res.Failure? && res.error.Status? ==>
              && res.error.code == r.code
              && (|r.body| > 0 ==> res.error.message == r.body)
              && (|r.body| == 0 ==> res.error.message == r.status)
    ensures r.Response? && statusOK(r.code) && r.readErr.Some? ==> res == Failure(Read(r.readErr.value))
  {
    match r
    case NoResponse(detail) => Failure(Transport(detail))
    case Response(code, status, body, readErr) =>
      if !statusOK(code) then
        var message := if |body| > 0 then body else status;
        Failure(Status(code, message))
      else if readErr.Some? then Failure(Read(readErr.value))
      else Success(body)
  }

  /** On a refused status the body is read only for the message, and a failed read is
      ignored: the classification is the same whether or not the read failed. */
  lemma RefusalIgnoresReadError(statusOK: int -> bool, r: Response)
    requires r.Response? && !statusOK(r.code)
    ensures Slurp(statusOK, r) == Slurp(statusOK, r.(readErr := None))
    ensures Slurp(statusOK, r).Failure? && Slurp(statusOK, r).error.Status?
  {
  }

  /** The status text is only a fall-back: once the body is non-empty, no status text
      changes the outcome. */
  lemma BodyOverridesStatusText(statusOK: int -> bool, r: Response, text: string)
    requires r.Response? && |r.body| > 0
    ensures Slurp(statusOK, r) == Slurp(statusOK, r.(status := text))
  {
  }
}

=== FILE: paging.dfy ===
/** The paging worker shared by every list endpoint (`doTasksPaging`, `ListMyWorkspaces`,
    `pageForTags`, `pageForCustomFields`, `pageForUsers`), as a deterministic function from
    the outcomes of successive fetches to the pages published before the stream closes.

    Where a listing hands out a cancel channel, no worker reads it, so it is not an input here. */
module Paging {
  import opened Wrappers
  import opened Errors
  import opened Strings
  import opened Http

  /** The `next_page` object of a list response. */
  datatype PageToken = PageToken(offset: string, path: string, uri: string)

  /** The outcome of one iteration's fetch: the request could not be built, sent or answered
      with an accepted status; or a body arrived and the decoder produced whatever items and
      token it could, with its error if it failed part-way. */
  datatype Fetch<T> =
    | TransportErr(err: Error)
    | Body(items: seq<T>, decodeErr: Option<Error>, nextPage: Option<PageToken>)

  /** A published page: its items, its `Err` field, and the `next_page` token when the page
      type carries one (only `WorkspacePage` does). */
  datatype Page<T> = Page(items: seq<T>, err: Option<Error>, nextPage: Option<PageToken>)

  /** The worker's current path, with any query it carries already split off. */
  datatype Target = Target(route: string, query: Values)

  /** The requests issued, the pages published, and whether the stream has been closed. */
  datatype Trace<T> = Trace(requests: seq<Url>, pages: seq<Page<T>>, closed: bool)

  /** What the JSON decoder made of one list body: the items and token it filled in, and its
      error if it failed part-way. */
  datatype PageDecoding<T> = PageDecoding(items: seq<T>, err: Option<Error>, nextPage: Option<PageToken>)

  /** One fetch as the loops perform it: the transport's answer goes through the status
      classification, and an accepted body goes to the decoder. `Run` takes the outcomes of
      such fetches; a refused status therefore ends the stream with an `HTTPError` page
      (`RefusedStatusEndsStream`). */
  function Observe<T>(statusOK: int -> bool, r: Response, decode: string -> PageDecoding<T>): (f: Fetch<T>)
    ensures f.TransportErr? <==> Slurp(statusOK, r).Failure?
    ensures f.TransportErr? ==> f.err == Slurp(statusOK, r).error
    ensures f.Body? ==> f == Body(decode(r.body).items, decode(r.body).err, decode(r.body).nextPage)
    ensures r.Response? && !statusOK(r.code) ==> Stops(f) && f.err.Status?
  {
    match Slurp(statusOK, r)
    case Failure(e) => TransportErr(e)
    case Success(body) =>
      var d := decode(body);
      Body(d.items, d.err, d.nextPage)
  }

  /** The continuation test exactly as the loops write it: `np != nil && np.Path == ""`. */
  predicate Continues(np: Option<PageToken>) {
    np.Some? && np.value.path == ""
  }

  /** Whether the worker returns or breaks after this fetch. */
  predicate Stops<T>(f: Fetch<T>) {
    f.TransportErr? || !Continues(f.nextPage)
  }

  /** The page an iteration publishes: `Err` alone after a failed fetch, otherwise the
      decoded items with the decoder's error, if any, and the decoded token when the page
      type carries it (`exposeToken`). */
  function Published<T>(f: Fetch<T>, exposeToken: bool): Page<T> {
    match f
    case TransportErr(e) => Page([], Some(e), None)
    case Body(items, decodeErr, np) => Page(items, decodeErr, if exposeToken then np else None)
  }

  /** The `opt_fields` value for a field list: every field prefixed with "this." and the
      results joined by commas. */
  function OptFieldsValue(fields: seq<string>): (v: string)
    requires |fields| > 0
    ensures |v| >= 5 && v[..5] == "this."
    ensures v == Join(Prefixed(fields), ",")
  {
    PrefixedJoin(fields);
    "this." + Join(fields, ",this.")
  }

  function Prefixed(fields: seq<string>): (r: seq<string>)
    ensures |r| == |fields|
    ensures forall i :: 0 <= i < |fields| ==> r[i] == "this." + fields[i]
  {
    if |fields| == 0 then [] else ["this." + fields[0]] + Prefixed(fields[1..])
  }

  lemma {:induction false} PrefixedJoin(fields: seq<string>)
    requires |fields| > 0
    ensures "this." + Join(fields, ",this.") == Join(Prefixed(fields), ",")
    decreases |fields|
  {
    if |fields| > 1 {
      PrefixedJoin(fields[1..]);
      assert Prefixed(fields)[1..] == Prefixed(fields[1..]);
      assert "this." + Join(fields, ",this.")
          == ("this." + fields[0]) + "," + ("this." + Join(fields[1..], ",this."));
    }
  }

  /** The `opt_fields` entry a worker adds to every query: the joined selection when its
      field list is not empty, nothing otherwise. */
  function Selection(fields: seq<string>): (sel: Option<string>)
    ensures sel.None? <==> |fields| == 0
    ensures sel.Some? ==> |sel.value| >= 5 && sel.value[..5] == "this."
    ensures sel.Some? ==> sel.value == Join(Prefixed(fields), ",")
  {
    if |fields| > 0 then Some(OptFieldsValue(fields)) else None
  }

  /** The URL one iteration requests: the base URL followed by the current route. The
      route's own query is kept, and the selection, if any, becomes the last `opt_fields`
      value; no other key is touched. */
  function RequestUrl(base: string, sel: Option<string>, t: Target): (u: Url)
    ensures u.target == base + t.route
    ensures sel.None? ==> u.query == t.query
    ensures u.query.Keys == t.query.Keys + (if sel.Some? then {"opt_fields"} else {})
    ensures forall k :: k in t.query && k != "opt_fields" ==> u.query[k] == t.query[k]
    ensures sel.Some? ==> var before := if "opt_fields" in t.query then t.query["opt_fields"] else [];
                          && |u.query["opt_fields"]| == |before| + 1
                          && u.query["opt_fields"][..|before|] == before
                          && u.query["opt_fields"][|before|] == sel.value
  {
    var url := Url(base + t.route, t.query);
    if sel.Some? then url.(query := Add(t.query, "opt_fields", sel.value)) else url
  }

  /** The target a continuing worker moves to: `path = np.Path`, which the continuation test
      has just found to be empty. */
  const Restart := Target("", map[])

  /** A request after the first goes to the base URL itself, with the selection as its only
      query parameter. */
  lemma RestartUrl(base: string, sel: Option<string>)
    ensures sel.None? ==> RequestUrl(base, sel, Restart) == Url(base, map[])
    ensures sel.Some? ==> RequestUrl(base, sel, Restart) == Url(base, map["opt_fields" := [sel.value]])
  {
    assert base + "" == base;
    if sel.Some? {
      var q := Add(map[], "opt_fields", sel.value);
      assert q.Keys == {"opt_fields"};
      assert q["opt_fields"] == [sel.value];
      assert q == map["opt_fields" := [sel.value]];
    }
  }

  /** The worker loop, fed the outcome of each fetch in turn. Every iteration requests one URL
      and publishes exactly one page; the stream closes after the first fetch that stops it.
      If the outcomes run out first, the worker is still waiting and the stream is open. */
  function Run<T>(base: string, sel: Option<string>, exposeToken: bool, t: Target, outs: seq<Fetch<T>>): (tr: Trace<T>)
    ensures |tr.requests| == |tr.pages| <= |outs|
    ensures |outs| > 0 ==> |tr.pages| > 0 && tr.requests[0] == RequestUrl(base, sel, t)
    ensures forall i :: 0 < i < |tr.requests| ==> tr.requests[i] == RequestUrl(base, sel, Restart)
    ensures forall i :: 0 <= i < |tr.pages| ==> tr.pages[i] == Published(outs[i], exposeToken)
    ensures forall i :: 0 <= i < |tr.pages| - 1 ==> !Stops(outs[i])
    ensures tr.closed <==> |tr.pages| > 0 && Stops(outs[|tr.pages| - 1])
    ensures !tr.closed ==> |tr.pages| == |outs|
    decreases |outs|
  {
    if |outs| == 0 then Trace([], [], false)
    else
      var url := RequestUrl(base, sel, t);
      var page := Published(outs[0], exposeToken);
      if Stops(outs[0]) then Trace([url], [page], true)
      else
        var rest := Run(base, sel, exposeToken, Restart, outs[1..]);
        Trace([url] + rest.requests, [page] + rest.pages, rest.closed)
  }

  /** A failed fetch publishes a page carrying only the error, and it is the last page. */
  lemma TransportErrorEndsStream<T>(base: string, sel: Option<string>, exposeToken: bool, t: Target, outs: seq<Fetch<T>>, i: nat)
    requires i < |Run(base, sel, exposeToken, t, outs).pages| && outs[i].TransportErr?
    ensures var tr := Run(base, sel, exposeToken, t, outs);
            tr.pages[i] == Page([], Some(outs[i].err), None) && i == |tr.pages| - 1 && tr.closed
  {
  }

  /** A refused status, taken through `Observe`, is what `Run` consumes as a failed fetch: the
      worker publishes a page holding only the `HTTPError`, with the code and message of the
      status classification, and closes the stream. */
  lemma RefusedStatusEndsStream<T>(base: string, sel: Option<string>, exposeToken: bool, t: Target, outs: seq<Fetch<T>>, i: nat,
                                   statusOK: int -> bool, r: Response, decode: string -> PageDecoding<T>)
    requires i < |Run(base, sel, exposeToken, t, outs).pages| && outs[i] == Observe(statusOK, r, decode)
    requires r.Response? && !statusOK(r.code)
    ensures var tr := Run(base, sel, exposeToken, t, outs);
            && tr.pages[i] == Page([], Some(Status(r.code, if |r.body| > 0 then r.body else r.status)), None)
            && i == |tr.pages| - 1 && tr.closed
  {
    TransportErrorEndsStream(base, sel, exposeToken, t, outs, i);
  }

  /** A body the decoder rejected is still published, with the decoder's error in `Err`, and
      the continuation test still decides whether another fetch follows. */
  lemma DecodeErrorStillPublished<T>(base: string, sel: Option<string>, exposeToken: bool, t: Target, outs: seq<Fetch<T>>, i: nat)
    requires i < |Run(base, sel, exposeToken, t, outs).pages| && outs[i].Body? && outs[i].decodeErr.Some?
    ensures var tr := Run(base, sel, exposeToken, t, outs);
            && tr.pages[i].items == outs[i].items && tr.pages[i].err == outs[i].decodeErr
            && (i + 1 < |outs| ==> (i + 1 < |tr.pages| <==> Continues(outs[i].nextPage)))
  {
  }

  /** After a fetch whose body arrived, the worker fetches again exactly when the token is
      present with an empty path: such a token, followed by another outcome, yields another
      page, and a missing token or one that names a further page ends the stream. */
  lemma ContinuesExactlyOnEmptyPath<T>(base: string, sel: Option<string>, exposeToken: bool, t: Target, outs: seq<Fetch<T>>, i: nat)
    requires i < |Run(base, sel, exposeToken, t, outs).pages| && outs[i].Body?
    ensures var tr := Run(base, sel, exposeToken, t, outs);
            && (i + 1 < |tr.pages| ==> outs[i].nextPage.Some? && outs[i].nextPage.value.path == "")
            && (outs[i].nextPage.None? || outs[i].nextPage.value.path != "" ==> i == |tr.pages| - 1 && tr.closed)
            && (Continues(outs[i].nextPage) && i + 1 < |outs| ==> i + 1 < |tr.pages|)
  {
  }

  /** Every request after the first goes to the base URL alone, because the worker only
      moves on to an empty path. */
  lemma LaterRequestsUseEmptyPath<T>(base: string, sel: Option<string>, exposeToken: bool, t: Target, outs: seq<Fetch<T>>, i: nat)
    requires 0 < i < |Run(base, sel, exposeToken, t, outs).requests|
    ensures Run(base, sel, exposeToken, t, outs).requests[i].target == base
  {
  }

  /** Feeding more outcomes never changes what was already published: the pages seen so far
      are a prefix of the pages seen later, and a closed stream stays as it is. */
  lemma {:induction false} MoreOutcomesExtend<T>(base: string, sel: Option<string>, exposeToken: bool, t: Target, outs: seq<Fetch<T>>, more: seq<Fetch<T>>)
    ensures var a, b := Run(base, sel, exposeToken, t, outs), Run(base, sel, exposeToken, t, outs + more);
            && a.pages <= b.pages && a.requests <= b.requests
            && (a.closed ==> b == a)
    decreases |outs|
  {
    if |outs| > 0 {
      var all := outs + more;
      assert all[0] == outs[0];
      assert all[1..] == outs[1..] + more;
      if !Stops(outs[0]) {
        MoreOutcomesExtend(base, sel, exposeToken, Restart, outs[1..], more);
        var a, b := Run(base, sel, exposeToken, t, outs), Run(base, sel, exposeToken, t, all);
        var ra, rb := Run(base, sel, exposeToken, Restart, outs[1..]), Run(base, sel, exposeToken, Restart, all[1..]);
        assert a.requests == [a.requests[0]] + ra.requests && b.requests == [a.requests[0]] + rb.requests;
        assert a.pages == [a.pages[0]] + ra.pages && b.pages == [a.pages[0]] + rb.pages;
        assert a.closed == ra.closed && b.closed == rb.closed;
        PrefixCons(a.requests[0], ra.requests, rb.requests);
        PrefixCons(a.pages[0], ra.pages, rb.pages);
      }
    }
  }

  lemma PrefixCons<X>(x: X, p: seq<X>, q: seq<X>)
    requires p <= q
    ensures [x] + p <= [x] + q
  {
    assert ([x] + q)[..|p| + 1] == [x] + p;
  }

  /** A two-page listing: a first page whose token names the next page, then a last page
      with no token. The worker stops after the first page. */
  lemma TwoPageListingStopsAfterOne<T>(base: string, first: seq<T>, second: seq<T>, t: Target)
    ensures var next := Some(PageToken("1", "/tasks?offset=1", "https://example/tasks?offset=1"));
            var tr := Run(base, None, false, t, [Body(first, None, next), Body(second, None, None)]);
            tr.pages == [Page(first, None, None)] && tr.closed
  {
  }
}

=== FILE: stories.dfy ===
/** Stories: creating a story (a comment) on a task. */
module Stories {
  import opened Wrappers
  import opened Errors
  import opened Http
  import opened Envelope
  import opened Entities

  /** `CreateStory`: the encoded request without its read-only fields, POSTed to
      "/tasks/<task id>/stories"; the task identifier is used as given. */
  function CreateStory(base: string, taskId: string, encoded: Result<Values, Error>, statusOK: int -> bool,
                       resp: Response, decode: string -> Decoded<Story>): (x: Exchange<Story>)
    ensures Creates(x, base + ("/tasks/" + taskId + "/stories"), encoded, statusOK, resp, decode)
    ensures x.sent.Some? ==> "num_hearts" !in x.sent.value.payload.values
  {
    CreateForm(base, "/tasks/" + taskId + "/stories", encoded, statusOK, resp, decode)
  }
}

=== FILE: strings.dfy ===
/** The string helpers of Go's `strings` package that the client relies on. */
module Strings {
  import opened Wrappers

  /** `unicode.IsSpace`: the Latin-1 white space characters plus the Unicode White_Space set. */
  predicate IsSpace(c: char) {
    || c == '\t' || c == '\n' || c == '\U{0B}' || c == '\U{0C}' || c == '\r' || c == ' '
    || c == '\U{85}' || c == '\U{A0}' || c == '\U{1680}'
    || ('\U{2000}' <= c <= '\U{200A}')
    || c == '\U{2028}' || c == '\U{2029}' || c == '\U{202F}' || c == '\U{205F}' || c == '\U{3000}'
  }

  predicate AllSpace(s: string) {
    forall i :: 0 <= i < |s| ==> IsSpace(s[i])
  }

  /** The index of the first character at or after `i` that is not white space, or `|s|`. */
  function SpaceEnd(s: string, i: nat): (j: nat)
    requires i <= |s|
    ensures i <= j <= |s|
    ensures forall k :: i <= k < j ==> IsSpace(s[k])
    ensures j < |s| ==> !IsSpace(s[j])
    decreases |s| - i
  {
    if i < |s| && IsSpace(s[i]) then SpaceEnd(s, i + 1) else i
  }

  /** The index just past the last character before `j`, and not before `lo`, that is not
      white space, or `lo`. */
  function SpaceStart(s: string, lo: nat, j: nat): (e: nat)
    requires lo <= j <= |s|
    ensures lo <= e <= j
    ensures forall k :: e <= k < j ==> IsSpace(s[k])
    ensures e > lo ==> !IsSpace(s[e - 1])
    decreases j
  {
    if j > lo && IsSpace(s[j - 1]) then SpaceStart(s, lo, j - 1) else j
  }

  /** How many white space characters open `s`. */
  function LeadingSpace(s: string): nat
    ensures LeadingSpace(s) <= |s|
  {
    SpaceEnd(s, 0)
  }

  /** `strings.TrimSpace`: the infix of `s` left after removing white space, and only white
      space, from both ends; it neither starts nor ends with white space, and it is empty
      exactly when `s` is all white space. */
  function TrimSpace(s: string): (r: string)
    ensures LeadingSpace(s) + |r| <= |s| && r == s[LeadingSpace(s)..LeadingSpace(s) + |r|]
    ensures forall i :: 0 <= i < LeadingSpace(s) ==> IsSpace(s[i])
    ensures forall i :: LeadingSpace(s) + |r| <= i < |s| ==> IsSpace(s[i])
    ensures |r| > 0 ==> !IsSpace(r[0]) && !IsSpace(r[|r| - 1])
    ensures r == [] <==> AllSpace(s)
  {
    var a := SpaceEnd(s, 0);
    var e := SpaceStart(s, a, |s|);
    assert e > a ==> s[a..e][0] == s[a] && s[a..e][e - a - 1] == s[e - 1];
    s[a..e]
  }

  /** Number of occurrences of `c` in `s`. */
  function Count(s: string, c: char): nat {
    if |s| == 0 then 0 else (if s[0] == c then 1 else 0) + Count(s[1..], c)
  }

  /** `strings.Join`. */
  function Join(parts: seq<string>, sep: string): string {
    if |parts| == 0 then ""
    else if |parts| == 1 then parts[0]
    else parts[0] + sep + Join(parts[1..], sep)
  }

  /** `strings.Split` with a one-character separator: the maximal runs between separators,
      one more than there are separators, none containing the separator, and joining them
      back gives the input. */
  function Split(s: string, sep: char): (parts: seq<string>)
    ensures |parts| == Count(s, sep) + 1
    ensures forall i :: 0 <= i < |parts| ==> sep !in parts[i]
    ensures Join(parts, [sep]) == s
    decreases |s|
  {
    if |s| == 0 then [""]
    else
      var rest := Split(s[1..], sep);
      if s[0] == sep then
        [""] + rest
      else
        var parts := [[s[0]] + rest[0]] + rest[1..];
        assert parts[1..] == rest[1..];
        assert |rest| > 1 ==> Join(rest, [sep]) == rest[0] + [sep] + Join(rest[1..], [sep]);
        parts
  }

  /** Splitting a text that has no separator gives the text back as the only part. */
  lemma {:induction false} SplitNoSeparator(x: string, sep: char)
    requires sep !in x
    ensures Split(x, sep) == [x]
    decreases |x|
  {
    if |x| > 0 {
      SplitNoSeparator(x[1..], sep);
      assert [x[0]] + x[1..] == x;
    }
  }

  /** Splitting at the first separator peels off the text before it. */
  lemma {:induction false} SplitFirst(x: string, sep: char, y: string)
    requires sep !in x
    ensures Split(x + [sep] + y, sep) == [x] + Split(y, sep)
    decreases |x|
  {
    if |x| == 0 {
      assert x + [sep] + y == [sep] + y;
      assert (x + [sep] + y)[1..] == y;
    } else {
      var s := x + [sep] + y;
      assert s[0] == x[0];
      assert s[1..] == x[1..] + [sep] + y;
      SplitFirst(x[1..], sep, y);
      assert [x[0]] + x[1..] == x;
    }
  }

  /** Split undoes Join whenever no part contains the separator. */
  lemma {:induction false} SplitJoin(parts: seq<string>, sep: char)
    requires |parts| >= 1
    requires forall i :: 0 <= i < |parts| ==> sep !in parts[i]
    ensures Split(Join(parts, [sep]), sep) == parts
    decreases |parts|
  {
    if |parts| == 1 {
      SplitNoSeparator(parts[0], sep);
    } else {
      SplitJoin(parts[1..], sep);
      SplitFirst(parts[0], sep, Join(parts[1..], [sep]));
      assert [parts[0]] + parts[1..] == parts;
    }
  }

  /** The rest of `h` after the prefix `p`, if `h` starts with it. */
  function AfterPrefix(p: string, h: string): (r: Option<string>)
    ensures r.Some? <==> p <= h
    ensures r.Some? ==> h == p + r.value
  {
    if |h| >= |p| && h[..|p|] == p then
      assert h == h[..|p|] + h[|p|..];
      Some(h[|p|..])
    else None
  }

  lemma AfterPrefixConcat(p: string, x: string)
    ensures AfterPrefix(p, p + x) == Some(x)
  {
    assert (p + x)[..|p|] == p;
    assert (p + x)[|p|..] == x;
  }

  /** Cuts `s` at the last occurrence of `c`: the text before it and the text after it. */
  function SplitLast(s: string, c: char): (r: Option<(string, string)>)
    ensures r.None? <==> c !in s
    ensures r.Some? ==> s == r.value.0 + [c] + r.value.1 && c !in r.value.1
    decreases |s|
  {
    if |s| == 0 then None
    else if s[|s| - 1] == c then
      assert s == s[..|s| - 1] + [c] + [];
      Some((s[..|s| - 1], ""))
    else
      var init := s[..|s| - 1];
      assert s == init + [s[|s| - 1]];
      match SplitLast(init, c)
      case None => None
      case Some((before, after)) => Some((before, after + [s[|s| - 1]]))
  }

  /** Cutting at the last `c` finds the `c` that no later character repeats. */
  lemma {:induction false} SplitLastConcat(a: string, c: char, b: string)
    requires c !in b
    ensures SplitLast(a + [c] + b, c) == Some((a, b))
    decreases |b|
  {
    var s := a + [c] + b;
    if |b| == 0 {
      assert s[..|s| - 1] == a;
    } else {
      var b0 := b[..|b| - 1];
      assert s[..|s| - 1] == a + [c] + b0;
      assert c !in b0 by {
        forall k | 0 <= k < |b0| ensures b0[k] != c {
          assert b0[k] == b[k];
        }
      }
      SplitLastConcat(a, c, b0);
      assert b0 + [b[|b| - 1]] == b;
    }
  }
}

=== FILE: tags.dfy ===
/** Tags: the tag listing, tag creation from form values, and the lookup of one tag. */
module Tags {
  import opened Wrappers
  import opened Errors
  import opened Http
  import opened Paging
  import opened Envelope
  import opened Entities

  /** `ListAllTags` through `pageForTags`: pages through "/tags" with no field selection. */
  function ListAllTags(base: string, outs: seq<Fetch<Tag>>): (tr: Trace<Tag>)
    ensures |outs| > 0 ==> |tr.requests| > 0 && tr.requests[0] == Url(base + "/tags", map[])
    ensures forall i :: 0 < i < |tr.requests| ==> tr.requests[i] == Url(base, map[])
    ensures |tr.pages| <= |outs| && forall i :: 0 <= i < |tr.pages| ==> tr.pages[i] == Published(outs[i], false)
    ensures |tr.requests| == |tr.pages| && (|outs| > 0 ==> |tr.pages| > 0)
    ensures forall i :: 0 <= i < |tr.pages| - 1 ==> !Stops(outs[i])
    ensures tr.closed <==> |tr.pages| > 0 && Stops(outs[|tr.pages| - 1])
    ensures !tr.closed ==> |tr.pages| == |outs|
  {
    RestartUrl(base, None);
    Run(base, None, false, Target("/tags", map[]), outs)
  }

  /** `CreateTag`: the encoded request without its read-only fields, POSTed to "/tags". */
  function CreateTag(base: string, encoded: Result<Values, Error>, statusOK: int -> bool, resp: Response,
                     decode: string -> Decoded<Tag>): (x: Exchange<Tag>)
    ensures Creates(x, base + "/tags", encoded, statusOK, resp, decode)
    ensures x.sent.Some? ==> "num_hearts" !in x.sent.value.payload.values
  {
    CreateForm(base, "/tags", encoded, statusOK, resp, decode)
  }

  /** The message of `GetTag`'s not-found error. */
  function NoTagMessage(tagId: string): string {
    "No tag found with ID " + tagId
  }

  /** `GetTag`: GET "/tags/<id>" with the identifier as given (not trimmed, not checked), and
      the first element of the decoded list, or the not-found error when it is nil. */
  function GetTag(base: string, tagId: string, statusOK: int -> bool, resp: Response,
                  decode: string -> Decoded<seq<Option<Tag>>>): (x: Exchange<Tag>)
    ensures x.sent == Some(Request(Get, Url(base + "/tags/" + tagId, map[]), NoPayload))
    ensures Slurp(statusOK, resp).Failure? ==> x.reply == Fail(Slurp(statusOK, resp).error)
    ensures Slurp(statusOK, resp).Success? ==>
              x.reply == FirstOrNotFound(decode(Slurp(statusOK, resp).value), NotFound(NoTagMessage(tagId)))
    ensures !x.reply.Nil?
  {
    Call(Request(Get, Url(base + "/tags/" + tagId, map[]), NoPayload), statusOK, resp,
         body => FirstOrNotFound(decode(body), NotFound(NoTagMessage(tagId))))
  }

  /** The reply of `GetTag` over all inputs: the tag exactly when the exchange succeeds
      and the decoded list opens with it; the not-found error when the list opens with nil; a
      panic when the list is null or empty; never `(nil, nil)`. */
  lemma GetTagReplies(base: string, tagId: string, statusOK: int -> bool, resp: Response,
                      decode: string -> Decoded<seq<Option<Tag>>>, v: Tag)
    ensures var x := GetTag(base, tagId, statusOK, resp, decode);
            var got := Slurp(statusOK, resp);
            && (x.reply == Found(v) <==> got.Success? && decode(got.value).Decoded? && decode(got.value).data.Some?
                                         && |decode(got.value).data.value| > 0 && decode(got.value).data.value[0] == Some(v))
            && (got.Success? && decode(got.value).Decoded? && decode(got.value).data.Some?
                && |decode(got.value).data.value| > 0 && decode(got.value).data.value[0].None?
                ==> x.reply == Fail(NotFound(NoTagMessage(tagId))))
            && (x.reply.IndexPanic? <==>
                  got.Success? && decode(got.value).Decoded?
                  && (decode(got.value).data.None? || |decode(got.value).data.value| == 0))
            && !x.reply.Nil?
  {
  }
}

=== FILE: tasks.dfy ===
/** Tasks: the assignee-status default, list-request defaults, the search options, the task
    listings (all through the shared pager with a fixed field selection), and the lookup and
    deletion of one task. */
module Tasks {
  import opened Wrappers
  import opened Errors
  import opened Strings
  import opened Http
  import opened Paging
  import opened Envelope
  import opened Entities

  const StatusInbox := "inbox"
  const StatusLater := "later"
  const StatusToday := "today"
  const StatusUpcoming := "upcoming"
  const DefaultAssigneeStatus := StatusInbox

  /** `AssigneeStatus.String`: the status text, or the default status when it is empty. */
  function AssigneeStatusText(status: string): (r: string)
    ensures r != ""
    ensures status != "" ==> r == status
    ensures status == "" ==> r == DefaultAssigneeStatus
  {
    if status != "" then status else DefaultAssigneeStatus
  }

  /** Reading a status text back as a status gives the same text: the default is applied
      once and is itself a status. */
  lemma StatusTextIdempotent(status: string)
    ensures AssigneeStatusText(AssigneeStatusText(status)) == AssigneeStatusText(status)
    ensures AssigneeStatusText(status) in {StatusInbox, StatusLater, StatusToday, StatusUpcoming}
            <==> status in {"", StatusInbox, StatusLater, StatusToday, StatusUpcoming}
  {
  }

  /** `TaskRequest`, without the fields no modelled operation reads: the time stamps
      `CreatedAt`, `CompletedAt`, `DueAt` and `ModifiedAt`, the date `DueOn`, the maps
      `CustomFields` and `Metadata`, and the lists `Hearts` and `Memberships`. `Followers`
      holds the user identifiers as text. */
  datatype TaskRequest = TaskRequest(
    page: int,
    limit: int,
    maxRetries: int,
    assignee: string,
    projectId: string,
    workspace: string,
    id: int,
    completed: bool,
    assigneeStatus: string,
    hearted: bool,
    heartCount: Option<int>,
    name: string,
    notes: string,
    projects: seq<string>,
    parent: string,
    tags: seq<string>,
    followers: seq<string>)

  /** Go's zero `TaskRequest`, which `new(TaskRequest)` yields. */
  const ZeroRequest := TaskRequest(0, 0, 0, "", "", "", 0, false, "", false, None, "", "", [], "", [], [])

  const DefaultTaskLimit := 20

  /** `fillWithDefaults`: nothing for a nil request; otherwise a limit that is not positive
      becomes the default limit, and nothing else changes. */
  function FillWithDefaults(t: Option<TaskRequest>): (r: Option<TaskRequest>)
    ensures t.None? <==> r.None?
    ensures t.Some? ==> && r.value.limit > 0
                        && (t.value.limit > 0 ==> r.value == t.value)
                        && (t.value.limit <= 0 ==> r.value.limit == DefaultTaskLimit)
                        && r.value.(limit := t.value.limit) == t.value
  {
    match t
    case None => None
    case Some(req) => if req.limit <= 0 then Some(req.(limit := DefaultTaskLimit)) else t
  }

  /** The request `ListMyTasks` encodes: a copy of the caller's request (or of the zero
      request), assigned to `me` and given the default limit when needed. The caller's value
      is not modified. */
  function ListRequest(treq: Option<TaskRequest>, me: string): (r: TaskRequest)
    ensures var caller := if treq.Some? then treq.value else ZeroRequest;
            && r.assignee == me
            && r.limit == (if caller.limit > 0 then caller.limit else DefaultTaskLimit)
            && r.(assignee := caller.assignee, limit := caller.limit) == caller
  {
    var theReq := if treq.Some? then treq.value else ZeroRequest;
    FillWithDefaults(Some(theReq.(assignee := me))).value
  }

  /** The fields every task page request selects through `opt_fields`, in order. */
  const TaskFields: seq<string> :=
    ["name", "assignee", "created_at", "completed", "completed_at", "assignee_status",
     "custom_fields", "due_on", "due_at", "external"]
    + ["followers.name", "followers.email", "hearted", "hearts", "num_hearts", "modified_at",
       "tags.name", "tags.color", "projects.name", "projects.custom_fields"]

  const TaskSelection: string := "this." + Join(TaskFields, ",this.")

  /** The task pager's selection is the one a pager with the task field list adds. */
  lemma TaskSelectionMatches()
    ensures Selection(TaskFields) == Some(TaskSelection)
  {
  }

  /** `doTasksPaging`: the shared pager with the task field selection. Every request carries
      the selection, and only the first goes anywhere but the base URL. */
  function TasksPaging(base: string, start: Target, outs: seq<Fetch<Task>>): (tr: Trace<Task>)
    ensures |outs| > 0 ==> |tr.requests| > 0
                           && tr.requests[0] == Url(base + start.route, Add(start.query, "opt_fields", TaskSelection))
    ensures forall i :: 0 < i < |tr.requests| ==> tr.requests[i] == Url(base, map["opt_fields" := [TaskSelection]])
    ensures |tr.pages| <= |outs| && forall i :: 0 <= i < |tr.pages| ==> tr.pages[i] == Published(outs[i], false)
  {
    RestartUrl(base, Some(TaskSelection));
    Run(base, Some(TaskSelection), false, start, outs)
  }

  /** `ListMyTasks`: encodes the list request as the query of "/tasks" and pages through it;
      an encoding error is returned before any fetch. */
  function ListMyTasks(base: string, me: string, treq: Option<TaskRequest>,
                       encode: TaskRequest -> Result<Values, Error>, outs: seq<Fetch<Task>>): (r: Result<Trace<Task>, Error>)
    ensures r.Failure? <==> encode(ListRequest(treq, me)).Failure?
    ensures r.Failure? ==> r.error == encode(ListRequest(treq, me)).error
    ensures r.Success? && |outs| > 0 ==>
              var qs := encode(ListRequest(treq, me)).value;
              |r.value.requests| > 0 && r.value.requests[0] == Url(base + "/tasks", Add(qs, "opt_fields", TaskSelection))
    ensures r.Success? ==> forall i :: 0 < i < |r.value.requests| ==>
                             r.value.requests[i] == Url(base, map["opt_fields" := [TaskSelection]])
    ensures r.Success? ==> |r.value.pages| <= |outs|
                           && forall i :: 0 <= i < |r.value.pages| ==> r.value.pages[i] == Published(outs[i], false)
  {
    match encode(ListRequest(treq, me))
    case Failure(e) => Failure(e)
    case Success(qs) => Success(TasksPaging(base, Target("/tasks", qs), outs))
  }

  /** `ListAllMyTasks`: `ListMyTasks` with no request, so the zero request assigned to `me`
      with the default limit is what gets encoded. */
  function ListAllMyTasks(base: string, me: string, encode: TaskRequest -> Result<Values, Error>,
                          outs: seq<Fetch<Task>>): (r: Result<Trace<Task>, Error>)
    ensures ListRequest(None, me) == ZeroRequest.(assignee := me, limit := DefaultTaskLimit)
    ensures r.Failure? <==> encode(ZeroRequest.(assignee := me, limit := DefaultTaskLimit)).Failure?
    ensures r.Failure? ==> r.error == encode(ZeroRequest.(assignee := me, limit := DefaultTaskLimit)).error
    ensures r.Success? && |outs| > 0 ==>
              var qs := encode(ZeroRequest.(assignee := me, limit := DefaultTaskLimit)).value;
              |r.value.requests| > 0 && r.value.requests[0] == Url(base + "/tasks", Add(qs, "opt_fields", TaskSelection))
    ensures r.Success? ==> forall i :: 0 < i < |r.value.requests| ==>
                             r.value.requests[i] == Url(base, map["opt_fields" := [TaskSelection]])
    ensures r.Success? ==> |r.value.pages| <= |outs|
                           && forall i :: 0 <= i < |r.value.pages| ==> r.value.pages[i] == Published(outs[i], false)
  {
    ListMyTasks(base, me, None, encode, outs)
  }

  /** `ListTasksForProject`: pages through "/projects/<id>/tasks" for the request's project
      identifier, used as given (it is not checked for being blank). A nil request is
      dereferenced, which is a run-time panic: None. */
  function ListTasksForProject(base: string, treq: Option<TaskRequest>, outs: seq<Fetch<Task>>): (r: Option<Trace<Task>>)
    ensures r.None? <==> treq.None?
    ensures r.Some? && |outs| > 0 ==>
              |r.value.requests| > 0
              && r.value.requests[0] == Url(base + "/projects/" + treq.value.projectId + "/tasks",
                                            Add(map[], "opt_fields", TaskSelection))
    ensures r.Some? ==> forall i :: 0 < i < |r.value.requests| ==>
                          r.value.requests[i] == Url(base, map["opt_fields" := [TaskSelection]])
    ensures r.Some? ==> |r.value.pages| <= |outs|
                        && forall i :: 0 <= i < |r.value.pages| ==> r.value.pages[i] == Published(outs[i], false)
  {
    match treq
    case None => None
    case Some(req) => Some(TasksPaging(base, Target("/projects/" + req.projectId + "/tasks", map[]), outs))
  }

  /** Of the whole request, only the project identifier reaches the listing: two requests
      for the same project page identically, and a request is never encoded into the query. */
  lemma ProjectListingUsesOnlyProjectId(base: string, a: TaskRequest, b: TaskRequest, outs: seq<Fetch<Task>>)
    requires a.projectId == b.projectId
    ensures ListTasksForProject(base, Some(a), outs) == ListTasksForProject(base, Some(b), outs)
    ensures |outs| > 0 ==> ListTasksForProject(base, Some(a), outs).value.requests[0].query.Keys == {"opt_fields"}
  {
  }

  /** A search option; each one writes one key of the search request. The float-valued
      `less_than` and `greater_than` options are not modelled. */
  datatype SearchOpt =
    | WithField(key: string, value: string)
    | WithCustomFieldIsSet(id: string, isSet: bool)
    | WithCustomFieldValue(id: string, text: string)
    | WithCustomFieldStarts(id: string, prefix: string)
    | WithCustomFieldEnds(id: string, suffix: string)
    | WithCustomFieldContains(id: string, part: string)

  const CustomFieldsPrefix := "custom_fields."

  /** `custom_fields.<id>.<operator>` */
  function CustomFieldKey(id: string, operator: string): string {
    CustomFieldsPrefix + id + "." + operator
  }

  /** Reads a custom-field search key back: the identifier and the operator after the last
      dot. */
  function ParseCustomFieldKey(k: string): Option<(string, string)> {
    match AfterPrefix(CustomFieldsPrefix, k)
    case None => None
    case Some(rest) => SplitLast(rest, '.')
  }

  /** A custom-field key names its identifier and operator, whatever the identifier holds,
      since no operator contains a dot. */
  lemma CustomFieldKeyRoundTrip(id: string, operator: string)
    requires '.' !in operator
    ensures ParseCustomFieldKey(CustomFieldKey(id, operator)) == Some((id, operator))
  {
    assert CustomFieldKey(id, operator) == CustomFieldsPrefix + (id + "." + operator);
    AfterPrefixConcat(CustomFieldsPrefix, id + "." + operator);
    SplitLastConcat(id, '.', operator);
  }

  /** `fmt.Sprintf("%t", b)` */
  function FormatBool(b: bool): (r: string)
    ensures r == "true" || r == "false"
    ensures r == "true" <==> b
  {
    if b then "true" else "false"
  }

  /** The key an option writes. */
  function OptKey(o: SearchOpt): string {
    match o
    case WithField(key, _) => key
    case WithCustomFieldIsSet(id, _) => CustomFieldKey(id, "is_set")
    case WithCustomFieldValue(id, _) => CustomFieldKey(id, "value")
    case WithCustomFieldStarts(id, _) => CustomFieldKey(id, "starts_with")
    case WithCustomFieldEnds(id, _) => CustomFieldKey(id, "ends_with")
    case WithCustomFieldContains(id, _) => CustomFieldKey(id, "contains")
  }

  /** The value an option writes. */
  function OptValue(o: SearchOpt): string {
    match o
    case WithField(_, value) => value
    case WithCustomFieldIsSet(_, isSet) => FormatBool(isSet)
    case WithCustomFieldValue(_, text) => text
    case WithCustomFieldStarts(_, prefix) => prefix
    case WithCustomFieldEnds(_, suffix) => suffix
    case WithCustomFieldContains(_, part) => part
  }

  /** The keys and values of the options: `WithField` writes its own key; the custom-field
      options write `custom_fields.<id>.<operator>` with operators `is_set`, `value`,
      `starts_with`, `ends_with` and `contains`, and `is_set` writes "true" or "false". */
  lemma OptionFormats(o: SearchOpt)
    ensures o.WithField? ==> OptKey(o) == o.key && OptValue(o) == o.value
    ensures o.WithCustomFieldIsSet? ==> && ParseCustomFieldKey(OptKey(o)) == Some((o.id, "is_set"))
                                        && (OptValue(o) == "true" || OptValue(o) == "false")
                                        && (OptValue(o) == "true" <==> o.isSet)
    ensures o.WithCustomFieldValue? ==> ParseCustomFieldKey(OptKey(o)) == Some((o.id, "value")) && OptValue(o) == o.text
    ensures o.WithCustomFieldStarts? ==> ParseCustomFieldKey(OptKey(o)) == Some((o.id, "starts_with")) && OptValue(o) == o.prefix
    ensures o.WithCustomFieldEnds? ==> ParseCustomFieldKey(OptKey(o)) == Some((o.id, "ends_with")) && OptValue(o) == o.suffix
    ensures o.WithCustomFieldContains? ==> ParseCustomFieldKey(OptKey(o)) == Some((o.id, "contains")) && OptValue(o) == o.part
  {
    match o
    case WithField(_, _) =>
    case WithCustomFieldIsSet(id, _) => CustomFieldKeyRoundTrip(id, "is_set");
    case WithCustomFieldValue(id, _) => CustomFieldKeyRoundTrip(id, "value");
    case WithCustomFieldStarts(id, _) => CustomFieldKeyRoundTrip(id, "starts_with");
    case WithCustomFieldEnds(id, _) => CustomFieldKeyRoundTrip(id, "ends_with");
    case WithCustomFieldContains(id, _) => CustomFieldKeyRoundTrip(id, "contains");
  }

  /** The key and value each option writes, in order. */
  function Writes(opts: seq<SearchOpt>): (w: seq<(string, string)>)
    ensures |w| == |opts|
    ensures forall i :: 0 <= i < |opts| ==> w[i] == (OptKey(opts[i]), OptValue(opts[i]))
  {
    seq(|opts|, i requires 0 <= i < |opts| => (OptKey(opts[i]), OptValue(opts[i])))
  }

  /** Writes applied left to right to one map. */
  function Collect(writes: seq<(string, string)>): (fields: map<string, string>)
    decreases |writes|
  {
    if |writes| == 0 then map[]
    else Collect(writes[..|writes| - 1])[writes[|writes| - 1].0 := writes[|writes| - 1].1]
  }

  /** `SearchTask`'s loop over its options: each option writes its key into one map. */
  function ApplyAll(opts: seq<SearchOpt>): (fields: map<string, string>)
    ensures |opts| > 0 ==> OptKey(opts[|opts| - 1]) in fields
                           && fields[OptKey(opts[|opts| - 1])] == OptValue(opts[|opts| - 1])
  {
    Collect(Writes(opts))
  }

  /** No write after position `i` is to the key write `i` is to. */
  predicate LastToWrite(writes: seq<(string, string)>, i: int)
    requires 0 <= i < |writes|
  {
    forall j :: i < j < |writes| ==> writes[j].0 != writes[i].0
  }

  /** The keys of the collected map are exactly the keys written. */
  lemma {:induction false} CollectKeys(writes: seq<(string, string)>)
    ensures Collect(writes).Keys == set i | 0 <= i < |writes| :: writes[i].0
    decreases |writes|
  {
    if |writes| > 0 {
      var init := writes[..|writes| - 1];
      CollectKeys(init);
      var before := set i | 0 <= i < |init| :: init[i].0;
      var after := set i | 0 <= i < |writes| :: writes[i].0;
      assert after == before + {writes[|writes| - 1].0} by {
        forall k | k in after ensures k in before + {writes[|writes| - 1].0} {
          var i :| 0 <= i < |writes| && writes[i].0 == k;
          if i < |init| { assert init[i].0 == k; }
        }
        forall k | k in before ensures k in after {
          var i :| 0 <= i < |init| && init[i].0 == k;
          assert writes[i].0 == k;
        }
      }
    }
  }

  /** Each written key holds the value of the last write to it. */
  lemma {:induction false} CollectLastWins(writes: seq<(string, string)>, i: int)
    requires 0 <= i < |writes| && LastToWrite(writes, i)
    ensures writes[i].0 in Collect(writes) && Collect(writes)[writes[i].0] == writes[i].1
    decreases |writes|
  {
    if i < |writes| - 1 {
      var init := writes[..|writes| - 1];
      assert init[i] == writes[i];
      assert LastToWrite(init, i) by {
        forall j | i < j < |init| ensures init[j].0 != init[i].0 {
          assert init[j] == writes[j];
        }
      }
      CollectLastWins(init, i);
      assert writes[|writes| - 1].0 != writes[i].0;
    }
  }

  /** The search fields hold exactly the keys the options write, and each key holds the value
      of the last option that writes it. */
  lemma SearchFieldsAreLastWrites(opts: seq<SearchOpt>, i: int)
    requires 0 <= i < |opts|
    requires forall j :: i < j < |opts| ==> OptKey(opts[j]) != OptKey(opts[i])
    ensures ApplyAll(opts).Keys == set j | 0 <= j < |opts| :: OptKey(opts[j])
    ensures ApplyAll(opts)[OptKey(opts[i])] == OptValue(opts[i])
  {
    var w := Writes(opts);
    CollectKeys(w);
    var written := set j | 0 <= j < |w| :: w[j].0;
    var keys := set j | 0 <= j < |opts| :: OptKey(opts[j]);
    assert written == keys by {
      forall k | k in keys ensures k in written {
        var j :| 0 <= j < |opts| && OptKey(opts[j]) == k;
        assert w[j].0 == k;
      }
    }
    CollectLastWins(w, i);
  }

  /** A later option for the same key overrides an earlier one. */
  lemma LaterOptionWins(opts: seq<SearchOpt>, first: SearchOpt, second: SearchOpt)
    requires OptKey(first) == OptKey(second)
    ensures ApplyAll(opts + [first, second]) == ApplyAll(opts + [second])
  {
    var w := Writes(opts);
    var w2 := Writes(opts + [first, second]);
    var w1 := Writes(opts + [second]);
    var k, v1, v2 := OptKey(second), OptValue(first), OptValue(second);
    assert w2[..|w2| - 1][..|w|] == w;
    assert w1[..|w|] == w;
    calc {
      Collect(w2);
      Collect(w2[..|w2| - 1])[k := v2];
      Collect(w)[k := v1][k := v2];
      Collect(w)[k := v2];
      Collect(w1);
    }
  }

  /** The query of a search: each collected key with its one value. */
  function SearchQuery(opts: seq<SearchOpt>): (q: Values)
    ensures q.Keys == ApplyAll(opts).Keys
    ensures forall k :: k in q ==> q[k] == [ApplyAll(opts)[k]]
  {
    var fields := ApplyAll(opts);
    map k | k in fields :: [fields[k]]
  }

  /** `SearchTask`: pages through "/workspaces/<id>/tasks/search" with the search query. */
  function SearchTask(base: string, workspaceId: string, opts: seq<SearchOpt>, outs: seq<Fetch<Task>>): (tr: Trace<Task>)
    ensures |outs| > 0 ==> |tr.requests| > 0 && tr.requests[0] == Url(base + "/workspaces/" + workspaceId + "/tasks/search",
                                               Add(SearchQuery(opts), "opt_fields", TaskSelection))
    ensures forall i :: 0 < i < |tr.requests| ==> tr.requests[i] == Url(base, map["opt_fields" := [TaskSelection]])
    ensures |tr.pages| <= |outs| && forall i :: 0 <= i < |tr.pages| ==> tr.pages[i] == Published(outs[i], false)
  {
    TasksPaging(base, Target("/workspaces/" + workspaceId + "/tasks/search", SearchQuery(opts)), outs)
  }

  /** A search depends on its options only through the fields they leave behind: option
      lists that collect to the same fields, such as one whose overridden options are dropped,
      give the same requests and pages. */
  lemma SearchDependsOnlyOnFields(base: string, workspaceId: string, a: seq<SearchOpt>, b: seq<SearchOpt>,
                                  outs: seq<Fetch<Task>>)
    requires ApplyAll(a) == ApplyAll(b)
    ensures SearchTask(base, workspaceId, a, outs) == SearchTask(base, workspaceId, b, outs)
  {
  }

  /** Writing the same key twice searches as if only the second option were given. */
  lemma SearchOverrideDropsFirst(base: string, workspaceId: string, opts: seq<SearchOpt>, first: SearchOpt,
                                 second: SearchOpt, outs: seq<Fetch<Task>>)
    requires OptKey(first) == OptKey(second)
    ensures SearchTask(base, workspaceId, opts + [first, second], outs) == SearchTask(base, workspaceId, opts + [second], outs)
  {
    LaterOptionWins(opts, first, second);
    SearchDependsOnlyOnFields(base, workspaceId, opts + [first, second], opts + [second], outs);
  }

  /** `FindTaskByID`: a blank identifier is refused before any request; otherwise the trimmed
      identifier names the task, and the reply is the `data` of the body, nil when null. */
  function FindTaskByID(base: string, taskId: string, statusOK: int -> bool, resp: Response,
                        decode: string -> Decoded<Task>): (x: Exchange<Task>)
    ensures x.sent.None? <==> AllSpace(taskId)
    ensures x.sent.None? ==> x.reply == Fail(EmptyTaskID)
    ensures x.sent.Some? ==> x.sent.value == Request(Get, Url(base + "/tasks/" + TrimSpace(taskId), map[]), NoPayload)
    ensures x.sent.Some? && Slurp(statusOK, resp).Failure? ==> x.reply == Fail(Slurp(statusOK, resp).error)
    ensures x.sent.Some? && Slurp(statusOK, resp).Success? ==>
              x.reply == ParseNullable(decode(Slurp(statusOK, resp).value))
  {
    match RequireId(taskId, EmptyTaskID)
    case Failure(e) => Exchange(None, Fail(e))
    case Success(id) =>
      Call(Request(Get, Url(base + "/tasks/" + id, map[]), NoPayload), statusOK, resp,
           body => ParseNullable(decode(body)))
  }

  /** The reply of `FindTaskByID` over all inputs: the task exactly when the identifier is not
      blank, the exchange succeeds and the body's `data` holds a task; `(nil, nil)` exactly
      when the `data` is null; an error otherwise. */
  lemma FindTaskReplies(base: string, taskId: string, statusOK: int -> bool, resp: Response,
                        decode: string -> Decoded<Task>, t: Task)
    ensures var x := FindTaskByID(base, taskId, statusOK, resp, decode);
            var got := Slurp(statusOK, resp);
            && (x.reply == Found(t) <==> !AllSpace(taskId) && got.Success? && decode(got.value) == Decoded(Some(t)))
            && (x.reply.Nil? <==> !AllSpace(taskId) && got.Success? && decode(got.value) == Decoded(None))
            && (x.reply.Fail? <==> AllSpace(taskId) || got.Failure? || decode(got.value).Malformed?)
  {
  }

  /** `DeleteTask` succeeds exactly when the identifier is not blank and the exchange
      succeeds; its error is the first of the two failures. */
  lemma DeleteTaskReplies(base: string, taskId: string, statusOK: int -> bool, resp: Response)
    ensures var x := DeleteTask(base, taskId, statusOK, resp);
            && (x.err.None? <==> !AllSpace(taskId) && Slurp(statusOK, resp).Success?)
            && (x.err.Some? ==> x.err.value == if AllSpace(taskId) then EmptyTaskID else Slurp(statusOK, resp).error)
  {
  }

  /** `DeleteTask`: the same identifier check, then a DELETE whose body is ignored. */
  function DeleteTask(base: string, taskId: string, statusOK: int -> bool, resp: Response): (x: Done)
    ensures x.sent.None? <==> AllSpace(taskId)
    ensures x.sent.None? ==> x.err == Some(EmptyTaskID)
    ensures x.sent.Some? ==> x.sent.value == Request(Delete, Url(base + "/tasks/" + TrimSpace(taskId), map[]), NoPayload)
    ensures x.sent.Some? ==> (x.err.None? <==> Slurp(statusOK, resp).Success?)
  {
    match RequireId(taskId, EmptyTaskID)
    case Failure(e) => Done(None, Some(e))
    case Success(id) =>
      var req := Request(Delete, Url(base + "/tasks/" + id, map[]), NoPayload);
      match Slurp(statusOK, resp)
      case Failure(e) => Done(Some(req), Some(e))
      case Success(_) => Done(Some(req), None)
  }
}

=== FILE: users.dfy ===
/** Users: the user listing. The `User` record itself is not modelled; the pager is generic
    in its items. */
module Users {
  import opened Wrappers
  import opened Http
  import opened Paging

  /** `ListAllUsers` through `pageForUsers`: pages through "/users" with no field selection. */
  function ListAllUsers<U>(base: string, outs: seq<Fetch<U>>): (tr: Trace<U>)
    ensures |outs| > 0 ==> |tr.requests| > 0 && tr.requests[0] == Url(base + "/users", map[])
    ensures forall i :: 0 < i < |tr.requests| ==> tr.requests[i] == Url(base, map[])
    ensures |tr.pages| <= |outs| && forall i :: 0 <= i < |tr.pages| ==> tr.pages[i] == Published(outs[i], false)
    ensures |tr.requests| == |tr.pages| && (|outs| > 0 ==> |tr.pages| > 0)
    ensures forall i :: 0 <= i < |tr.pages| - 1 ==> !Stops(outs[i])
    ensures tr.closed <==> |tr.pages| > 0 && Stops(outs[|tr.pages| - 1])
    ensures !tr.closed ==> |tr.pages| == |outs|
  {
    RestartUrl(base, None);
    Run(base, None, false, Target("/users", map[]), outs)
  }
}

=== FILE: workspaces.dfy ===
/** Workspaces: the workspace listing and the lookup of one workspace. */
module Workspaces {
  import opened Wrappers
  import opened Errors
  import opened Http
  import opened Paging
  import opened Envelope
  import opened Entities

  /** `ListMyWorkspaces`: pages through "/workspaces" with no field selection. Unlike the
      other listings it publishes the decoded `WorkspacePage` itself, so each page carries its
      `next_page` token; when the worker stops on a token naming a further page, that token is
      the consumer's only way to the rest of the listing. */
  function ListMyWorkspaces(base: string, outs: seq<Fetch<Workspace>>): (tr: Trace<Workspace>)
    ensures |outs| > 0 ==> |tr.requests| > 0 && tr.requests[0] == Url(base + "/workspaces", map[])
    ensures forall i :: 0 < i < |tr.requests| ==> tr.requests[i] == Url(base, map[])
    ensures |tr.pages| <= |outs| && forall i :: 0 <= i < |tr.pages| ==> tr.pages[i] == Published(outs[i], true)
    ensures |tr.requests| == |tr.pages| && (|outs| > 0 ==> |tr.pages| > 0)
    ensures forall i :: 0 <= i < |tr.pages| - 1 ==> !Stops(outs[i])
    ensures tr.closed <==> |tr.pages| > 0 && Stops(outs[|tr.pages| - 1])
    ensures !tr.closed ==> |tr.pages| == |outs|
    ensures forall i :: 0 <= i < |tr.pages| && outs[i].Body? ==>
              tr.pages[i].nextPage == outs[i].nextPage && tr.pages[i].items == outs[i].items
  {
    RestartUrl(base, None);
    Run(base, None, true, Target("/workspaces", map[]), outs)
  }

  /** The message of `GetWorkspace`'s not-found error. */
  function NoWorkspaceMessage(workspaceId: string): string {
    "No workspace found with ID " + workspaceId
  }

  /** `GetWorkspace`: GET "/workspaces/<id>" with the identifier as given, and the first
      element of the decoded list, or the not-found error when it is nil. */
  function GetWorkspace(base: string, workspaceId: string, statusOK: int -> bool, resp: Response,
                        decode: string -> Decoded<seq<Option<Workspace>>>): (x: Exchange<Workspace>)
    ensures x.sent == Some(Request(Get, Url(base + "/workspaces/" + workspaceId, map[]), NoPayload))
    ensures Slurp(statusOK, resp).Failure? ==> x.reply == Fail(Slurp(statusOK, resp).error)
    ensures Slurp(statusOK, resp).Success? ==>
              x.reply == FirstOrNotFound(decode(Slurp(statusOK, resp).value), NotFound(NoWorkspaceMessage(workspaceId)))
    ensures !x.reply.Nil?
  {
    Call(Request(Get, Url(base + "/workspaces/" + workspaceId, map[]), NoPayload), statusOK, resp,
         body => FirstOrNotFound(decode(body), NotFound(NoWorkspaceMessage(workspaceId))))
  }

  /** The reply of `GetWorkspace` over all inputs: the workspace exactly when the exchange succeeds
      and the decoded list opens with it; the not-found error when the list opens with nil; a
      panic when the list is null or empty; never `(nil, nil)`. */
  lemma GetWorkspaceReplies(base: string, workspaceId: string, statusOK: int -> bool, resp: Response,
                            decode: string -> Decoded<seq<Option<Workspace>>>, v: Workspace)
    ensures var x := GetWorkspace(base, workspaceId, statusOK, resp, decode);
            var got := Slurp(statusOK, resp);
            && (x.reply == Found(v) <==> got.Success? && decode(got.value).Decoded? && decode(got.value).data.Some?
                                         && |decode(got.value).data.value| > 0 && decode(got.value).data.value[0] == Some(v))
            && (got.Success? && decode(got.value).Decoded? && decode(got.value).data.Some?
                && |decode(got.value).data.value| > 0 && decode(got.value).data.value[0].None?
                ==> x.reply == Fail(NotFound(NoWorkspaceMessage(workspaceId))))
            && (x.reply.IndexPanic? <==>
                  got.Success? && decode(got.value).Decoded?
                  && (decode(got.value).data.None? || |decode(got.value).data.value| == 0))
            && !x.reply.Nil?
  {
  }
}

=== FILE: wrappers.dfy ===
/** Option and Result: the shapes the client uses for "maybe nil" and "value or error". */
module Wrappers {

  /** A Go pointer or interface that may be nil. */
  datatype Option<+T> = None | Some(value: T)

  /** A Go `(value, error)` pair where exactly one side matters. */
  datatype Result<+T, +E> = Success(value: T) | Failure(error: E)
}
